=== FILE: README.md ===
# Guitar signal separation: data-preparation core in Dafny

This project models the pure logic that the guitar-separation project runs
before and around its separation model:

- **Energy** and **Confidence** model the activation-confidence annotation of
  `medleydb/cambridge/utils.py`. `track_energy` pads a stem, cuts it into
  half-overlapping frames and computes a windowed, rectified envelope per
  frame. `compute_activation_confidence` divides the energies by the loudest
  frame total, zeroes the near-silent frames (judged on the totals before the
  division) and prepends a time column.
- **Metadata** models the MedleyDB metadata helpers of
  `medleydb/medleydb/utils.py`. These are the instrument list, the label
  canonicalisation (`' '` and `'/'` become `'_'`), the stems of one
  instrument, the track ids before `"_STEM"`, and the instruments of one
  track. Each track's `stems` column is taken as already parsed into records.
- **Chunker** models the fixed-length chunker of
  `open-unmix/trackfolder_var_preprocessing.py`. It cuts every stem into
  6-second windows named `<sample name>_<index>.wav` and never overwrites a
  file that already exists. The loop's range ends at `stop - interval`, so
  the last full window of a stem is never cut. The model keeps that
  behaviour and states it (`Chunker.ChunkCount`, `Chunker.FinalWindowDropped`).
- **Upload** models the upload filter and the output names of the web
  service in `website/app.py`.
- **InstrumentFiles** models `get_instruments` and the acoustic-guitar name
  selection of the two Cambridge utility files.
- **Strings**, **Ordering** and **Arith** hold shared helpers:
  - Python's `s.split(sep)[0]`, `rsplit('.', 1)[1]` and `lower()` on ASCII;
  - decimal rendering of an index;
  - lexicographic order and the sorted set of a list of strings;
  - facts about multiplication and division.

Sample values are reals and integer frames. Python's integer operators are
taken as exact; the script's float division `int(i / interval)` is exact for
every offset the loop produces, because each is a multiple of the interval.
The regular expression `.*[aA]coustic.*|.*[aA]cGtr.*` is anchored by
`re.match` and its `.` does not cross a line break. The model therefore
accepts a name when one of the four keywords starts before its first
newline. For a one-line name this is the same as "contains one of the
keywords" (`InstrumentFiles.AcousticGuitarOnOneLine`). A name with a newline
before the keyword is rejected (`InstrumentFiles.AcousticGuitarStopsAtNewline`).

## Model

| member | source | states |
|---|---|---|
| Energy.Hwr | medleydb/cambridge/utils.py:49-63 | half-wave rectification is never negative, keeps a non-negative sample and maps a negative one to 0 |
| Energy.HwrIdempotent | medleydb/cambridge/utils.py:63 | rectifying twice is the same as rectifying once |
| Energy.PrePad | medleydb/cambridge/utils.py:30-34 | exactly `win_len - win_len // 2` zeros are put in front and the original samples follow unchanged |
| Energy.FixLength | medleydb/cambridge/utils.py:37-39 | `fix_length` yields exactly the requested size, keeping the leading samples and filling the rest with zeros |
| Energy.PaddedSizeBounds | medleydb/cambridge/utils.py:38 | `win_len * ceil(len / win_len)` is a multiple of `win_len`, at least `len` and less than `len + win_len` |
| Energy.PostPad | medleydb/cambridge/utils.py:37-39 | the post-padded signal has a length that is a multiple of `win_len`, loses no sample and adds only zeros |
| Energy.PostPadIsLeastMultiple | medleydb/cambridge/utils.py:37-39 | no multiple of `win_len` that still holds every sample is shorter than the post-padded signal |
| Energy.Padded | medleydb/cambridge/utils.py:30-39 | after both paddings: zeros in front, the wave in place, zeros behind, and at least one full window |
| Energy.FrameCount | medleydb/cambridge/utils.py:42 | the number of frames is the number of hop-spaced windows that fit: every counted frame lies inside the signal and the next one would not |
| Energy.Frame | medleydb/cambridge/utils.py:42 | frame `k` holds exactly the padded samples `[k * hop_len, k * hop_len + win_len)`, in order |
| Energy.Envelope | medleydb/cambridge/utils.py:45 | one value per frame sample, each the compressed half-wave rectification `root(hwr(x))` of that sample |
| Energy.DotNonNegative | medleydb/cambridge/utils.py:47 | a sum of products of non-negative values is non-negative |
| Energy.FrameEnergyNonNegative | medleydb/cambridge/utils.py:45-47 | with a non-negative window and root, a frame's energy is non-negative |
| Energy.FrameEnergy | medleydb/cambridge/utils.py:45-47 | a frame's energy times the window length is the window-weighted sum of its rectified, compressed samples: the mean over the frame |
| Energy.TrackEnergy | medleydb/cambridge/utils.py:12-47 | one energy value per frame, each the windowed mean of the rectified, compressed frame; all non-negative for a non-negative window and root |
| Energy.ConstantSignalInteriorFrames | medleydb/cambridge/utils.py:30-47 | two frames lying wholly inside a constant signal have the same energy |
| Confidence.FrameTotals | medleydb/cambridge/utils.py:105 | `E0` has one total per frame, the sum of that frame's energies over all stems |
| Confidence.ArgMax | medleydb/cambridge/utils.py:107 | the first position holding the maximum: no element exceeds it and every earlier one is smaller |
| Confidence.Max | medleydb/cambridge/utils.py:107 | `np.max` is an element of the sequence and bounds every element from above |
| Confidence.Normalize | medleydb/cambridge/utils.py:104-109 | every entry is divided by `max(E0)`, and every frame whose total before the division is below the threshold becomes exactly 0; defined whenever `max(E0) > 0` or every frame is masked |
| Confidence.SilentIsZero | medleydb/cambridge/utils.py:104-109 | a silent stem (all energies 0, positive threshold) has every frame masked and normalises to all zeros, not NaN |
| Confidence.EntryAtMostColumnSum | medleydb/cambridge/utils.py:105 | with non-negative energies, one stem's energy never exceeds its frame total |
| Confidence.NormalizedInUnitInterval | medleydb/cambridge/utils.py:99-109 | with non-negative energies, and `max(E0) > 0` or every frame masked, every normalised entry lies in [0, 1] |
| Confidence.NormalizeRow | medleydb/cambridge/utils.py:102-109 | for the single loaded stem: masked frames are 0, the others are energy over the maximum, and all lie in [0, 1] when the energies are non-negative |
| Confidence.Scale | medleydb/cambridge/utils.py:104-107 | the energies recorded with a gain `c`: every entry multiplied by `c` |
| Confidence.MaxScale | medleydb/cambridge/utils.py:107 | a positive gain multiplies `np.max` by the same gain |
| Confidence.NormalizeRowGain | medleydb/cambridge/utils.py:104-109 | scaling every energy by a gain `c > 0` leaves the normalised value of a frame that stays above the threshold unchanged, since the division by the maximum cancels the gain |
| Confidence.PeakIsOne | medleydb/cambridge/utils.py:107-109 | the loudest frame normalises to exactly 1 unless the threshold masks it |
| Confidence.StemNormalizedEnergy | medleydb/cambridge/utils.py:96-109 | the normalised energy of a loaded stem has one value per frame, each in [0, 1] for a non-negative Hann window and square root |
| Confidence.FrameTime | medleydb/cambridge/utils.py:119-121 | frame `k`'s time is non-negative and, multiplied by the 44100 Hz rate, gives `k * (win_len // 2)` samples |
| Confidence.ActivationTable | medleydb/cambridge/utils.py:118-125 | one output row per frame: the frame time, then each stem's confidence in that frame |
| Confidence.TimeColumnIncreasing | medleydb/cambridge/utils.py:119-121 | the time column starts at 0 and strictly increases from row to row |
| Metadata.InstrumentsList | medleydb/medleydb/utils.py:6-18 | a label is in the instrument list exactly when some record of some track carries it |
| Metadata.ReplaceChar | medleydb/medleydb/utils.py:26 | `str.replace` of one character keeps the length, rewrites exactly the occurrences and leaves every other character in place |
| Metadata.Canonicalize | medleydb/medleydb/utils.py:26 | the canonical label has the same length, no `' '` or `'/'`, an `'_'` where they were and every other character in place |
| Metadata.CanonicalFixedPoints | medleydb/medleydb/utils.py:26 | a label is its own canonical form exactly when it has no `' '` and no `'/'` |
| Metadata.CanonicalizeIdempotent | medleydb/medleydb/utils.py:26 | canonicalising a canonical label changes nothing |
| Metadata.CanonicalizeMerges | medleydb/medleydb/utils.py:26 | different labels can share a canonical form (`a b` and `a/b`) |
| Metadata.InstrumentsDict | medleydb/medleydb/utils.py:20-26 | the keys are exactly the given instruments; each value has its key's length, has `'_'` wherever the key has `' '` or `'/'` and the key's character everywhere else, and equals its key exactly when the key is already canonical |
| Metadata.MatchingFilenames | medleydb/medleydb/utils.py:38-40 | a file name is listed exactly when some record of the track has that name and exactly that instrument, and there are never more names than records |
| Metadata.MatchingFilenamesOne | medleydb/medleydb/utils.py:38-40 | one record contributes its file name once when its instrument matches, and nothing otherwise |
| Metadata.MatchingFilenamesAppend | medleydb/medleydb/utils.py:38-40 | the matches of two runs of records are the first run's followed by the second's, so with the one-record case every match appears once per matching record, in record order |
| Metadata.InstrumentStems | medleydb/medleydb/utils.py:28-41 | a file name is returned exactly when some track holds a record with that file name and exactly that instrument |
| Metadata.InstrumentStemsAppend | medleydb/medleydb/utils.py:35-41 | the result for two batches of tracks is the first batch's result followed by the second's, so iteration order is kept |
| Metadata.InstrumentStemsSingle | medleydb/medleydb/utils.py:36-40 | a single track contributes exactly its own `MatchingFilenames`, whose order and multiplicity the two lemmas above fix |
| Metadata.ListedIffHasStems | medleydb/medleydb/utils.py:6-41 | a label is in the instrument list exactly when looking it up finds at least one stem |
| Metadata.TrackId | medleydb/medleydb/utils.py:50 | the track id is the longest prefix before the first `"_STEM"`, and the whole name when there is none |
| Metadata.TrackIdOfStemFile | medleydb/medleydb/utils.py:50 | the id of `<track>_STEM<rest>` is `<track>` for any track name without `"_STEM"` |
| Metadata.Distinct | medleydb/medleydb/utils.py:50 | `list(set(...))` holds each element of its input exactly once |
| Metadata.InstrumentTracks | medleydb/medleydb/utils.py:43-50 | the track ids of the given stems, each exactly once, whatever instrument name is passed |
| Metadata.TrackInstruments | medleydb/medleydb/utils.py:52-63 | each instrument of the track exactly once, and nothing else |
| Chunker.Stop | open-unmix/trackfolder_var_preprocessing.py:45 | `stop` is a multiple of the interval within one interval below the sample count |
| Chunker.StopIsLargestMultiple | open-unmix/trackfolder_var_preprocessing.py:45 | no multiple of the interval up to the sample count exceeds `stop` |
| Chunker.RangeLengthBounds | open-unmix/trackfolder_var_preprocessing.py:49 | every counted range value is below the end and the next one is not |
| Chunker.Range | open-unmix/trackfolder_var_preprocessing.py:49 | `range(0, end, step)` is `0, step, 2*step, ...`, each below `end`, stopping at the first value that is not |
| Chunker.ChunkStarts | open-unmix/trackfolder_var_preprocessing.py:45-49 | the offsets are consecutive multiples of the interval, and each window ends at or before `stop - interval` |
| Chunker.ChunkCount | open-unmix/trackfolder_var_preprocessing.py:45-49 | a stem of `n` samples gives `n // interval - 1` chunks, or none when it is shorter than one interval |
| Chunker.FinalWindowDropped | open-unmix/trackfolder_var_preprocessing.py:45-49 | the first offset not used is `stop - interval`, so the last full window before `stop` is never cut |
| Chunker.SampleName | open-unmix/trackfolder_var_preprocessing.py:48 | the sample name is the prefix of the file name before its first `'.'`, and the whole name when there is none |
| Chunker.ChunkName | open-unmix/trackfolder_var_preprocessing.py:52 | a chunk's file name is the sample name, `'_'`, the decimal index and `.wav`, in that order |
| Chunker.ChunkNamesDistinct | open-unmix/trackfolder_var_preprocessing.py:51-52 | two chunk indices of one stem give the same file name only when they are equal |
| Chunker.ChunkIndexOfStart | open-unmix/trackfolder_var_preprocessing.py:51 | `int(i / interval)` recovers the position `k` of the offset `i = k * interval` |
| Chunker.ChunkAt | open-unmix/trackfolder_var_preprocessing.py:49-52 | the `k`-th chunk is named with index `k`, keeps the stem's rate and is the `interval` samples from offset `k * interval`, inside the stem |
| Chunker.Plan | open-unmix/trackfolder_var_preprocessing.py:49-52 | one chunk per offset, in order |
| Chunker.PlanNamesDistinct | open-unmix/trackfolder_var_preprocessing.py:51-52 | no two chunks of one stem share a file name |
| Chunker.SkipExisting | open-unmix/trackfolder_var_preprocessing.py:53-54 | skipping existing destinations never adds a chunk to the plan (which ones are kept is `Chunker.SkipExistingMembers`) |
| Chunker.SkipExistingMembers | open-unmix/trackfolder_var_preprocessing.py:53-54 | a chunk is written exactly when it is planned and its destination does not exist yet |
| Chunker.ChunkAtOffset | open-unmix/trackfolder_var_preprocessing.py:50-52 | the chunk cut at an offset holds exactly `interval` samples at the stem's rate |
| Chunker.ChunkFile | open-unmix/trackfolder_var_preprocessing.py:42-59 | the loop writes the planned chunks whose destination does not exist, in order: it never overwrites, never writes one name twice, and afterwards every planned name is present |
| Chunker.PreprocessSplit | open-unmix/trackfolder_var_preprocessing.py:42-59 | over all stems of a split: what is written is, stem after stem, the planned chunks whose name neither existed nor was planned by an earlier stem; each is a planned chunk (name, rate and samples) of one stem; no existing file is overwritten, no name is written twice, and afterwards exactly the existing and planned names are present |
| Chunker.SplitWrittenPlanned | open-unmix/trackfolder_var_preprocessing.py:42-59 | every chunk a split writes is the `interval`-sample window that the plan of one of its stems cuts |
| Upload.AllowedFile | website/app.py:19-21 | a name without `'.'` is refused, and an accepted one has `wav` (up to case) after its last `'.'` |
| Upload.AllowedFileIff | website/app.py:19-21 | a name is accepted exactly when it ends in `'.'` followed by `wav` in any letter case |
| Upload.AcceptsUpperCase | website/app.py:21 | `x.WAV` is accepted |
| Upload.AcceptsBareExtension | website/app.py:21 | `.wav` is accepted |
| Upload.OnlyLastExtensionCounts | website/app.py:21 | `a.mp3.wav` is accepted and `a.wav.mp3` is refused |
| Upload.RejectsNearMisses | website/app.py:20-21 | `wav` (no dot) and `a.wave` are refused |
| Upload.MixName | website/app.py:55 | the mix name is the prefix of the upload's name before its first `.wav`, and the whole name when there is none |
| Upload.MixNameOfWav | website/app.py:55 | `<base>.wav` gives back `<base>` for any base without `.wav` in it |
| Upload.MixNameKeepsUpperCaseExtension | website/app.py:55 | the split is case-sensitive: the accepted upload `a.WAV` keeps its extension in the mix name |
| Upload.PredName | website/app.py:66 | the prediction file name is the mix name, `'_'`, the target instrument and `.wav`, in that order |
| Upload.CompName | website/app.py:67 | the accompaniment file name is the mix name followed by `_comp.wav` |
| Upload.OutputNamesDistinct | website/app.py:66-67 | the prediction and accompaniment files collide exactly when the target is called `comp` |
| Upload.DeployedNamesDistinct | website/app.py:66-67 | with the deployed target `acoustic_guitar` the prediction never overwrites the accompaniment |
| InstrumentFiles.StripWav | cambridge/cambridge/utils.py:14 | the stripped name is the prefix before the first `.wav`, and the whole name when there is none |
| InstrumentFiles.GetInstruments | cambridge/cambridge/utils.py:8-15 | strictly ascending (sorted, no duplicates); a name is listed exactly when some file strips to it; no listed name contains `.wav` |
| InstrumentFiles.GetInstrumentsOrderIndependent | medleydb/cambridge/utils.py:127-134 | the result depends only on which files were found, not on the order the search yields them |
| InstrumentFiles.IsAcousticGuitar | cambridge/cambridge/utils.py:25 | a name the pattern matches has at least five characters, the shortest keyword `acGtr` |
| InstrumentFiles.AcousticGuitarOnOneLine | cambridge/cambridge/utils.py:25 | on a name without a line break, the pattern matches exactly when one of `acoustic`, `Acoustic`, `acGtr`, `AcGtr` occurs |
| InstrumentFiles.AcousticGuitarStopsAtNewline | medleydb/cambridge/utils.py:144 | a keyword after a line break does not match, although it occurs in the name |
| InstrumentFiles.AcousticGuitarTracks | medleydb/cambridge/utils.py:142-145 | a file is selected exactly when it was found and its stripped name matches the pattern |
| InstrumentFiles.AcousticGuitarTracksAppend | cambridge/cambridge/utils.py:23-26 | selecting from a concatenation selects from each part and keeps the search order |
| Strings.SplitFirst | open-unmix/trackfolder_var_preprocessing.py:48 | `s.split(sep)[0]` is the prefix of `s` before the first occurrence of `sep`, and `s` itself when there is none |
| Strings.SplitFirstOfJoin | website/app.py:55 | for a separator that overlaps itself nowhere, `(a + sep + b).split(sep)[0]` is `a` whenever `a` does not contain `sep` |
| Strings.AfterLast | website/app.py:21 | `rsplit('.', 1)[1]` is the suffix after the last `'.'` and contains no `'.'` |
| Strings.LowerAscii | website/app.py:21 | lower-casing keeps the length and maps each character on its own |
| Strings.NatToDecimal | open-unmix/trackfolder_var_preprocessing.py:52 | the decimal rendering of an index is a non-empty string of digits, one digit long exactly for indices below 10 |
| Strings.NatToDecimalInjective | open-unmix/trackfolder_var_preprocessing.py:52 | different indices render differently |
| Ordering.SortedSet | cambridge/cambridge/utils.py:15 | `sorted(set(xs))` is strictly ascending and holds exactly the elements of `xs` |
| Ordering.AscendingUnique | cambridge/cambridge/utils.py:15 | two strictly ascending lists with the same elements are equal |

## Left out

- The square root of `hwr(x) ** 0.5` is a function parameter. Non-negativity results assume it returns non-negative values. Its actual values are floating point.
- The Hann window (`scipy.signal.windows.hann`) is a given sequence of coefficients. The bounds assume the coefficients are non-negative.
- The Butterworth filter and `filtfilt`, the logistic curve with `np.exp`, and the `theta`/`var_lambda` step are not modelled. These are floating-point numerics. `Confidence.ActivationTable` takes the confidence matrix as input.
- `librosa.load` and resampling, `wavfile.read`/`write`, `np.savetxt`, `Path.glob`, `save_fn.exists()` and file saving are input/output.
  - Loaded samples, found files and the set of existing names are parameters.
  - A written chunk is a value in the result.
- `eval` of the `stems` column: records are taken as already parsed.
- The Flask routes, `secure_filename`, `flash`/`redirect` and the external `separate` call in `website/app.py` are outside this model.
- Floating-point rounding is not modelled. Reals and integers are exact, so `np.ceil(len / win_len)` and `int(i / interval)` are their exact integer counterparts.
- `Strings.LowerAscii`: lower-cases ASCII letters only. Python's `str.lower` also folds non-ASCII letters, which only matters for extensions outside ASCII.
- `Metadata.Distinct`: promises each element once but no particular order. Python's `list(set(...))` order depends on hashing.
- `Confidence.Normalize`: requires `max(E0) > 0` or every frame total below the threshold. A silent stem meets this: its NaNs are overwritten by the mask (`Confidence.SilentIsZero`). With a positive threshold the requires always holds. It excludes only a threshold of at most 0 together with `max(E0) <= 0`, where an unmasked frame would be divided by a non-positive maximum.
- `Energy.FrameCount`: requires `win_len >= 2`. A hop length of 0 is refused by `librosa.util.frame`.
- The outer loop over the train and valid splits, with their hard-coded track lists, is not modelled. `Chunker.PreprocessSplit` models one split, taking its loaded stems as input.
- The `print` calls and `tqdm` progress bars are not modelled.
- medleydb/crepe_pitch_to_midi.py, medleydb/preprocessing.py, open-unmix/train.py, open-unmix/data_stats.py and Website/app.py are not part of this model.

=== FILE: arith.dfy ===
/** Facts about multiplication and Euclidean division of naturals used by the framing and chunking arithmetic. */
module Arith {

  lemma {:induction false} MulMonotone(a: nat, b: nat, c: nat)
    requires a <= b
    ensures a * c <= b * c
    decreases c
  {
    if c > 0 {
      MulMonotone(a, b, c - 1);
      assert a * c == a * (c - 1) + a;
      assert b * c == b * (c - 1) + b;
    }
  }

  lemma MulStrictMonotone(a: nat, b: nat, c: nat)
    requires a < b && c > 0
    ensures a * c + c <= b * c
  {
    MulMonotone(a + 1, b, c);
    assert (a + 1) * c == a * c + c;
  }

  /** Euclidean division of naturals: `q * d <= a < q * d + d` for `q = a / d`. */
  lemma DivBounds(a: nat, d: nat)
    requires d > 0
    ensures (a / d) * d <= a < (a / d) * d + d
    ensures a % d == a - (a / d) * d
  {
    assert a == d * (a / d) + a % d;
  }

  /** The quotient is the only `q` with `q * d <= a < q * d + d`. */
  lemma DivUnique(a: nat, d: nat, q: nat)
    requires d > 0
    requires q * d <= a < q * d + d
    ensures a / d == q
    ensures a % d == a - q * d
  {
    DivBounds(a, d);
    var q' := a / d;
    if q' < q {
      MulStrictMonotone(q', q, d);
    } else if q < q' {
      MulStrictMonotone(q, q', d);
    }
  }

  lemma MultipleMod(q: nat, d: nat)
    requires d > 0
    ensures (q * d) % d == 0
    ensures (q * d) / d == q
  {
    DivUnique(q * d, d, q);
  }
}

=== FILE: chunker.dfy ===
/**
 The fixed-length chunker of open-unmix/trackfolder_var_preprocessing.py:
 every stem of a split is cut into consecutive 6-second windows that are
 written as `<sample name>_<index>.wav`, skipping destinations that already
 exist. Reading and writing WAV files is replaced by the loaded samples and
 by the set of names already present in the split's directory.
 */
module Chunker {
  import opened Arith
  import opened Strings

  /** Samples per chunk: 6 seconds at 44100 Hz, `44100 * 6`. */
  const Interval: nat := 264600

  /** One sample frame as `wavfile.read` returns it: one integer per channel. */
  type WavFrame = seq<int>

  /** A loaded stem: its file name, its sample rate and its frames. */
  datatype WavFile = WavFile(name: string, rate: nat, samples: seq<WavFrame>)

  /** One written chunk file. */
  datatype Chunk = Chunk(name: string, rate: nat, samples: seq<WavFrame>)

  /** `(n // interval) * interval`: the largest multiple of the interval not above `n`. */
  function Stop(n: nat): (s: nat)
    ensures s % Interval == 0
    ensures s <= n < s + Interval
  {
    DivBounds(n, Interval);
    MultipleMod(n / Interval, Interval);
    (n / Interval) * Interval
  }

  /** No multiple of the interval lies strictly between `Stop(n)` and `n`. */
  lemma StopIsLargestMultiple(n: nat, q: nat)
    requires q * Interval <= n
    ensures q * Interval <= Stop(n)
  {
    DivBounds(n, Interval);
    MulMonotone(q, n / Interval, Interval);
  }

  /** The `k`-th value of a range with step `step`. */
  function RangeValue(k: nat, step: nat): nat {
    k * step
  }

  /** Number of values of `range(0, end, step)`. */
  function RangeLength(end: int, step: nat): nat
    requires step > 0
  {
    if end <= 0 then 0 else (end - 1) / step + 1
  }

  lemma RangeLengthBounds(end: int, step: nat)
    requires step > 0
    ensures forall k: nat :: k < RangeLength(end, step) ==> RangeValue(k, step) < end
    ensures RangeValue(RangeLength(end, step), step) >= end
  {
    if end > 0 {
      var count := RangeLength(end, step);
      DivBounds(end - 1, step);
      assert RangeValue(count, step) == ((end - 1) / step) * step + step;
      forall k: nat | k < count ensures RangeValue(k, step) < end {
        MulMonotone(k, (end - 1) / step, step);
      }
    }
  }

  /**
   Python's `range(0, end, step)` for a positive step: `0, step, 2 * step, ...`
   while below `end`; empty when `end <= 0`.
   */
  function Range(end: int, step: nat): (r: seq<nat>)
    requires step > 0
    ensures |r| == RangeLength(end, step)
    ensures forall k :: 0 <= k < |r| ==> r[k] == RangeValue(k, step) && r[k] < end
    ensures RangeValue(|r|, step) >= end
  {
    RangeLengthBounds(end, step);
    seq(RangeLength(end, step), k requires 0 <= k < RangeLength(end, step) => RangeValue(k, step))
  }

  /** `range(0, stop - interval, interval)`: the offsets at which chunks are cut. */
  function ChunkStarts(n: nat): (r: seq<nat>)
    ensures |r| == RangeLength(Stop(n) - Interval, Interval)
    ensures forall k :: 0 <= k < |r| ==> r[k] == RangeValue(k, Interval)
    ensures forall k :: 0 <= k < |r| ==> r[k] + Interval <= Stop(n) - Interval
  {
    var r := Range(Stop(n) - Interval, Interval);
    assert forall k :: 0 <= k < |r| ==> r[k] + Interval <= Stop(n) - Interval by {
      forall k | 0 <= k < |r| ensures r[k] + Interval <= Stop(n) - Interval {
        WindowBeforeStop(n, k);
      }
    }
    r
  }

  /** A multiple of the interval below `Stop(n) - Interval` leaves room for a whole window before it. */
  lemma WindowBeforeStop(n: nat, k: nat)
    requires RangeValue(k, Interval) < Stop(n) - Interval
    ensures RangeValue(k, Interval) + Interval <= Stop(n) - Interval
  {
    DivBounds(n, Interval);
    assert Stop(n) == (n / Interval - 1) * Interval + Interval;
    MulStrictMonotone(k, n / Interval - 1, Interval);
  }

  /** `max(0, n // interval - 1)` chunks: one fewer than the number of whole windows. */
  lemma ChunkCount(n: nat)
    ensures |ChunkStarts(n)| == if n / Interval >= 1 then n / Interval - 1 else 0
  {
    var q := n / Interval;
    if q >= 2 {
      var e := Stop(n) - Interval;
      ShiftMultiple(q, 1, Interval);
      ShiftMultiple(q, 2, Interval);
      DivUnique(e - 1, Interval, q - 2);
    } else if q == 1 {
      assert Stop(n) == Interval;
    }
  }

  /** `(q - b) * d == q * d - b * d`. */
  lemma ShiftMultiple(q: nat, b: nat, d: nat)
    requires b <= q
    ensures (q - b) * d == q * d - b * d
  {
  }

  /**
   When the stem holds at least one whole window, the chunks tile the signal
   from sample 0 up to exactly one window before `Stop(n)`: the last whole
   window `[Stop(n) - Interval, Stop(n))` lies inside the stem but is never cut.
   */
  lemma FinalWindowDropped(n: nat)
    requires n >= Interval
    ensures Stop(n) - Interval >= 0 && Stop(n) <= n
    ensures RangeValue(|ChunkStarts(n)|, Interval) == Stop(n) - Interval
  {
    ChunkCount(n);
    DivBounds(n, Interval);
    assert Stop(n) == (n / Interval - 1) * Interval + Interval;
  }

  /** `fn.name.split(".")[0]`. */
  function SampleName(fileName: string): (r: string)
    ensures r <= fileName && '.' !in r
    ensures '.' !in fileName ==> r == fileName
    ensures '.' in fileName ==> |r| < |fileName| && fileName[|r|] == '.'
  {
    var r := SplitFirst(fileName, ".");
    NoDotNoOccurrence(r);
    NoDotNoOccurrence(fileName);
    assert '.' in fileName ==> fileName[|r|..|r| + 1][0] == '.';
    r
  }

  /** A one-character separator occurs exactly where its character does. */
  lemma NoDotNoOccurrence(s: string)
    ensures '.' !in s <==> !Contains(s, ".")
  {
    forall j: nat | j + 1 <= |s| ensures OccursAt(s, ".", j) <==> s[j] == '.' {
      assert s[j..j + 1] == [s[j]];
    }
    if '.' in s {
      var j :| 0 <= j < |s| && s[j] == '.';
      assert OccursAt(s, ".", j);
    }
  }

  /** `f"{sample_name}_{i}.wav"`. */
  function ChunkName(sampleName: string, k: nat): (r: string)
    ensures |r| == |sampleName| + |NatToDecimal(k)| + 5
    ensures r[..|sampleName|] == sampleName && r[|sampleName|] == '_'
    ensures r[|sampleName| + 1..|r| - 4] == NatToDecimal(k) && r[|r| - 4..] == ".wav"
  {
    sampleName + "_" + NatToDecimal(k) + ".wav"
  }

  /** Different chunk indices of one stem give different file names. */
  lemma ChunkNamesDistinct(sampleName: string, j: nat, k: nat)
    requires ChunkName(sampleName, j) == ChunkName(sampleName, k)
    ensures j == k
  {
    var a, b := ChunkName(sampleName, j), ChunkName(sampleName, k);
    var dj, dk := NatToDecimal(j), NatToDecimal(k);
    var p := |sampleName| + 1;
    assert |dj| == |dk|;
    assert a[p..p + |dj|] == dj;
    assert b[p..p + |dk|] == dk;
    NatToDecimalInjective(j, k);
  }

  /** Number of chunks cut from a stem. */
  function ChunkTotal(file: WavFile): nat {
    |ChunkStarts(|file.samples|)|
  }

  /** The `k`-th chunk of a stem: `wav[i:i+interval]` for the `k`-th offset `i`, named after `int(i / interval)`. */
  function ChunkAt(file: WavFile, k: nat): (c: Chunk)
    requires k < ChunkTotal(file)
    ensures c.name == ChunkName(SampleName(file.name), k)
    ensures c.rate == file.rate
    ensures |c.samples| == Interval
    ensures RangeValue(k, Interval) + Interval <= |file.samples|
    ensures c.samples == file.samples[RangeValue(k, Interval)..RangeValue(k, Interval) + Interval]
  {
    var i := ChunkStarts(|file.samples|)[k];
    ChunkIndexOfStart(k);
    Chunk(ChunkName(SampleName(file.name), i / Interval), file.rate, file.samples[i..i + Interval])
  }

  /** Everything the loop body would write for a stem, in order. */
  function Plan(file: WavFile): (cs: seq<Chunk>)
    ensures |cs| == ChunkTotal(file)
    ensures forall k :: 0 <= k < |cs| ==> cs[k] == ChunkAt(file, k)
  {
    seq(ChunkTotal(file), k requires 0 <= k < ChunkTotal(file) => ChunkAt(file, k))
  }

  /** `int(i / interval)` recovers the position `k` of the offset `i = k * interval`. */
  lemma ChunkIndexOfStart(k: nat)
    ensures RangeValue(k, Interval) / Interval == k
  {
    MultipleMod(k, Interval);
  }

  /** The names of a sequence of chunks. */
  function Names(cs: seq<Chunk>): set<string> {
    set i | 0 <= i < |cs| :: cs[i].name
  }

  /** No two chunks share a name. */
  predicate DistinctNames(cs: seq<Chunk>) {
    forall i, j :: 0 <= i < j < |cs| ==> cs[i].name != cs[j].name
  }

  lemma PlanNamesDistinct(file: WavFile)
    ensures DistinctNames(Plan(file))
  {
    var cs := Plan(file);
    forall i, j | 0 <= i < j < |cs| ensures cs[i].name != cs[j].name {
      if cs[i].name == cs[j].name {
        ChunkNamesDistinct(SampleName(file.name), i, j);
      }
    }
  }

  /** The chunks whose destination is not among `existing`, in order. */
  function SkipExisting(cs: seq<Chunk>, existing: set<string>): (r: seq<Chunk>)
    ensures |r| <= |cs|
  {
    if |cs| == 0 then []
    else
      var last := cs[|cs| - 1];
      SkipExisting(cs[..|cs| - 1], existing) + (if last.name in existing then [] else [last])
  }

  /** A chunk is kept exactly when it is planned and its name is not among `existing`. */
  lemma {:induction false} SkipExistingMembers(cs: seq<Chunk>, existing: set<string>)
    ensures forall c :: c in SkipExisting(cs, existing) <==> c in cs && c.name !in existing
  {
    if |cs| > 0 {
      var init, last := cs[..|cs| - 1], cs[|cs| - 1];
      SkipExistingMembers(init, existing);
      assert cs == init + [last];
    }
  }

  /**
   The loop over the offsets of one stem: each chunk is written unless a file
   of that name is already present, and every written name becomes present.
   */
  method ChunkFile(file: WavFile, existing: set<string>) returns (written: seq<Chunk>, present: set<string>)
    ensures written == SkipExisting(Plan(file), existing)
    ensures forall c :: c in written ==> c.name !in existing
    ensures DistinctNames(written)
    ensures present == existing + Names(written)
    ensures present == existing + Names(Plan(file))
  {
    var plan := Plan(file);
    PlanNamesDistinct(file);
    var starts := ChunkStarts(|file.samples|);
    var name := SampleName(file.name);
    written, present := [], existing;
    var k := 0;
    PlanStart(plan, existing);
    while k < |starts|
      invariant 0 <= k <= |starts|
      invariant written == SkipExisting(plan[..k], existing)
      invariant present == existing + Names(plan[..k])
    {
      BodyIsPlanned(file, k);
      var chunk := ChunkAtOffset(file, name, starts[k]);
      LoopStep(plan, k, existing, written, present);
      if chunk.name !in present {
        written := written + [chunk];
        present := present + {chunk.name};
      }
      k := k + 1;
    }
    assert plan[..k] == plan;
    PlanWritten(plan, existing, written, present);
  }

  /**
   Before the first offset nothing is written and only `existing` is present.
   Stated apart from the loop so that the set identities reach it in exactly
   the form its invariants are written in.
   */
  lemma PlanStart(plan: seq<Chunk>, existing: set<string>)
    ensures SkipExisting(plan[..0], existing) == []
    ensures existing + Names(plan[..0]) == existing
  {
    assert plan[..0] == [];
    assert Names([]) == {};
  }

  /** After the last offset, what was written and what is present are as the method promises. */
  lemma PlanWritten(plan: seq<Chunk>, existing: set<string>, written: seq<Chunk>, present: set<string>)
    requires DistinctNames(plan)
    requires written == SkipExisting(plan, existing)
    requires present == existing + Names(plan)
    ensures forall c :: c in written ==> c.name !in existing
    ensures DistinctNames(written)
    ensures present == existing + Names(written)
  {
    SkipExistingKeepsNames(plan, existing);
    SkipExistingMembers(plan, existing);
  }

  /** The loop body at offset `i`: `wav[i:i+interval]` saved as `f"{sample_name}_{int(i / interval)}.wav"`. */
  function ChunkAtOffset(file: WavFile, sampleName: string, i: nat): (c: Chunk)
    requires i + Interval <= |file.samples|
    ensures |c.samples| == Interval && c.rate == file.rate
  {
    Chunk(ChunkName(sampleName, i / Interval), file.rate, file.samples[i..i + Interval])
  }

  /** The chunk the loop body builds at its `k`-th offset is the `k`-th planned chunk. */
  lemma BodyIsPlanned(file: WavFile, k: nat)
    requires k < ChunkTotal(file)
    ensures ChunkStarts(|file.samples|)[k] + Interval <= |file.samples|
    ensures ChunkAtOffset(file, SampleName(file.name), ChunkStarts(|file.samples|)[k]) == Plan(file)[k]
  {
    ChunkIndexOfStart(k);
  }

  /** What one more offset adds: its name is new, and it is kept exactly when its name is not among `existing`. */
  lemma PlanStep(plan: seq<Chunk>, k: nat, existing: set<string>)
    requires DistinctNames(plan) && k < |plan|
    ensures Names(plan[..k + 1]) == Names(plan[..k]) + {plan[k].name}
    ensures plan[k].name !in Names(plan[..k])
    ensures SkipExisting(plan[..k + 1], existing) ==
      SkipExisting(plan[..k], existing) + (if plan[k].name in existing then [] else [plan[k]])
  {
    var p := plan[..k + 1];
    assert p[..k] == plan[..k];
    assert forall j :: 0 <= j < k ==> p[j] == plan[j] && plan[..k][j] == plan[j];
    assert Names(p) == Names(plan[..k]) + {plan[k].name} by {
      assert p[k] == plan[k];
    }
  }

  /** One pass of the loop body keeps the loop's invariants. */
  lemma LoopStep(plan: seq<Chunk>, k: nat, existing: set<string>, written: seq<Chunk>, present: set<string>)
    requires DistinctNames(plan) && k < |plan|
    requires written == SkipExisting(plan[..k], existing)
    requires present == existing + Names(plan[..k])
    ensures plan[k].name in present <==> plan[k].name in existing
    ensures plan[k].name in present ==>
      SkipExisting(plan[..k + 1], existing) == written && existing + Names(plan[..k + 1]) == present
    ensures plan[k].name !in present ==>
      SkipExisting(plan[..k + 1], existing) == written + [plan[k]] &&
      existing + Names(plan[..k + 1]) == present + {plan[k].name}
  {
    PlanStep(plan, k, existing);
  }

  /** Skipping the chunks whose names exist keeps the names distinct, and together with `existing` covers every planned name. */
  lemma {:induction false} SkipExistingKeepsNames(cs: seq<Chunk>, existing: set<string>)
    requires DistinctNames(cs)
    ensures DistinctNames(SkipExisting(cs, existing))
    ensures existing + Names(SkipExisting(cs, existing)) == existing + Names(cs)
  {
    if |cs| > 0 {
      var k := |cs| - 1;
      DistinctNamesPrefix(cs, k);
      SkipExistingKeepsNames(cs[..k], existing);
      SkipExistingStep(cs, existing);
    }
  }

  /** The induction step of `SkipExistingKeepsNames`: one more chunk at the end. */
  lemma SkipExistingStep(cs: seq<Chunk>, existing: set<string>)
    requires DistinctNames(cs) && |cs| > 0
    requires DistinctNames(SkipExisting(cs[..|cs| - 1], existing))
    requires existing + Names(SkipExisting(cs[..|cs| - 1], existing)) == existing + Names(cs[..|cs| - 1])
    ensures DistinctNames(SkipExisting(cs, existing))
    ensures existing + Names(SkipExisting(cs, existing)) == existing + Names(cs)
  {
    var k := |cs| - 1;
    var last := cs[k];
    var kept := SkipExisting(cs[..k], existing);
    assert last.name !in Names(cs[..k]) && Names(cs) == Names(cs[..k]) + {last.name} by {
      assert cs[..k + 1] == cs;
      PlanStep(cs, k, existing);
    }
    if last.name in existing {
      assert SkipExisting(cs, existing) == kept;
    } else {
      assert last.name !in Names(kept) by {
        SkippedNamesPlanned(cs[..k], existing);
      }
      AppendChunk(kept, last);
      assert SkipExisting(cs, existing) == kept + [last];
    }
  }

  lemma DistinctNamesPrefix(cs: seq<Chunk>, k: nat)
    requires DistinctNames(cs) && k <= |cs|
    ensures DistinctNames(cs[..k])
  {
    assert forall j :: 0 <= j < k ==> cs[..k][j] == cs[j];
  }

  /** Every kept name is a planned name. */
  lemma SkippedNamesPlanned(cs: seq<Chunk>, existing: set<string>)
    ensures Names(SkipExisting(cs, existing)) <= Names(cs)
  {
    var kept := SkipExisting(cs, existing);
    SkipExistingMembers(cs, existing);
    forall x | x in Names(kept) ensures x in Names(cs) {
      var j :| 0 <= j < |kept| && kept[j].name == x;
      assert kept[j] in kept;
      var i :| 0 <= i < |cs| && cs[i] == kept[j];
    }
  }

  /** Appending a chunk whose name is new keeps the names distinct. */
  lemma AppendChunk(cs: seq<Chunk>, c: Chunk)
    requires DistinctNames(cs) && c.name !in Names(cs)
    ensures DistinctNames(cs + [c])
    ensures Names(cs + [c]) == Names(cs) + {c.name}
  {
    var r := cs + [c];
    assert forall j :: 0 <= j < |cs| ==> r[j] == cs[j];
    assert r[|cs|] == c;
    forall i, j | 0 <= i < j < |r| ensures r[i].name != r[j].name {
      if j == |cs| {
        assert cs[i].name in Names(cs);
      }
    }
  }

  /**
   One split (`train` or `valid`): the stems in order, all written into the
   same directory. A later stem with the same sample name finds its chunk
   names present and writes nothing over them.
   */
  method PreprocessSplit(files: seq<WavFile>, existing: set<string>) returns (written: seq<Chunk>, present: set<string>)
    ensures forall c :: c in written ==> c.name !in existing
    ensures DistinctNames(written)
    ensures present == existing + Names(written)
    ensures present == existing + PlannedNames(files)
    ensures written == SplitWritten(files, existing)
    ensures forall c :: c in written ==> exists i :: 0 <= i < |files| && c in Plan(files[i])
  {
    written, present := [], existing;
    var i := 0;
    SplitStart(files, existing);
    while i < |files|
      invariant 0 <= i <= |files|
      invariant forall c :: c in written ==> c.name !in existing
      invariant DistinctNames(written)
      invariant present == existing + Names(written)
      invariant present == existing + PlannedNames(files[..i])
      invariant written == SplitWritten(files[..i], existing)
    {
      var w, p := ChunkFile(files[i], present);
      PlannedNamesStep(files, i);
      SplitWrittenStep(files, i, existing);
      PresentStep(existing, PlannedNames(files[..i]), Names(Plan(files[i])), present, p);
      SplitStep(existing, written, present, w, p);
      written, present := written + w, p;
      i := i + 1;
    }
    assert files[..i] == files;
    SplitWrittenPlanned(files, existing);
  }

  /**
   Before the first stem nothing is written and only `existing` is present.
   Stated apart from the loop so that the set identities reach it in exactly
   the form its invariants are written in.
   */
  lemma SplitStart(files: seq<WavFile>, existing: set<string>)
    ensures existing + Names([]) == existing
    ensures existing + PlannedNames(files[..0]) == existing
    ensures SplitWritten(files[..0], existing) == []
  {
    assert files[..0] == [];
    assert Names([]) == {};
  }

  /**
   What a split writes: stem after stem, the planned chunks whose name
   neither existed before nor was planned by an earlier stem.
   */
  function SplitWritten(files: seq<WavFile>, existing: set<string>): seq<Chunk> {
    if |files| == 0 then []
    else
      var before := files[..|files| - 1];
      SplitWritten(before, existing) + SkipExisting(Plan(files[|files| - 1]), existing + PlannedNames(before))
  }

  /** The chunks written for the first `i + 1` stems are those of the first `i`, then those of stem `i`. */
  lemma SplitWrittenStep(files: seq<WavFile>, i: nat, existing: set<string>)
    requires i < |files|
    ensures SplitWritten(files[..i + 1], existing) ==
      SplitWritten(files[..i], existing) + SkipExisting(Plan(files[i]), existing + PlannedNames(files[..i]))
  {
    assert files[..i + 1][..i] == files[..i];
  }

  /** Every chunk a split writes is a planned chunk of one of its stems, samples and rate included. */
  lemma {:induction false} SplitWrittenPlanned(files: seq<WavFile>, existing: set<string>)
    ensures forall c :: c in SplitWritten(files, existing) ==> exists i :: 0 <= i < |files| && c in Plan(files[i])
  {
    if |files| > 0 {
      var before, last := files[..|files| - 1], files[|files| - 1];
      SplitWrittenPlanned(before, existing);
      SkipExistingMembers(Plan(last), existing + PlannedNames(before));
      forall c | c in SplitWritten(files, existing) ensures exists i :: 0 <= i < |files| && c in Plan(files[i]) {
        if c in SplitWritten(before, existing) {
          var i :| 0 <= i < |before| && c in Plan(before[i]);
          assert before[i] == files[i];
        } else {
          assert c in Plan(files[|files| - 1]);
        }
      }
    }
  }

  /** Every chunk name the stems of `files` would produce. */
  function PlannedNames(files: seq<WavFile>): set<string> {
    if |files| == 0 then {} else PlannedNames(files[..|files| - 1]) + Names(Plan(files[|files| - 1]))
  }

  /** The names planned for the first `i + 1` stems are those of the first `i` and those of stem `i`. */
  lemma PlannedNamesStep(files: seq<WavFile>, i: nat)
    requires i < |files|
    ensures PlannedNames(files[..i + 1]) == PlannedNames(files[..i]) + Names(Plan(files[i]))
  {
    assert files[..i + 1][..i] == files[..i];
  }

  /**
   Adding one stem's names to what is present adds them to the planned names.
   Set associativity, kept out of the loop body where it is expensive to find.
   */
  lemma PresentStep(existing: set<string>, planned: set<string>, names: set<string>, present: set<string>, p: set<string>)
    requires present == existing + planned && p == present + names
    ensures p == existing + (planned + names)
  {
  }

  /** Appending the chunks of one more stem keeps the split's invariants. */
  lemma SplitStep(existing: set<string>, written: seq<Chunk>, present: set<string>, w: seq<Chunk>, p: set<string>)
    requires forall c :: c in written ==> c.name !in existing
    requires DistinctNames(written) && present == existing + Names(written)
    requires forall c :: c in w ==> c.name !in present
    requires DistinctNames(w) && p == present + Names(w)
    ensures forall c :: c in written + w ==> c.name !in existing
    ensures DistinctNames(written + w)
    ensures p == existing + Names(written + w)
  {
    var r := written + w;
    forall a, b | 0 <= a < b < |r| ensures r[a].name != r[b].name {
      if b >= |written| {
        assert r[b] == w[b - |written|] && w[b - |written|] in w;
        if a < |written| {
          assert r[a] == written[a];
          assert written[a].name in Names(written);
        } else {
          assert r[a] == w[a - |written|];
        }
      } else {
        assert r[a] == written[a] && r[b] == written[b];
      }
    }
    assert Names(r) == Names(written) + Names(w) by {
      forall x | x in Names(r) ensures x in Names(written) + Names(w) {
        var j :| 0 <= j < |r| && r[j].name == x;
        if j >= |written| {
          assert w[j - |written|].name == x;
        } else {
          assert written[j].name == x;
        }
      }
      forall x | x in Names(written) + Names(w) ensures x in Names(r) {
        if x in Names(written) {
          var j :| 0 <= j < |written| && written[j].name == x;
          assert r[j].name == x;
        } else {
          var j :| 0 <= j < |w| && w[j].name == x;
          assert r[|written| + j].name == x;
        }
      }
    }
  }
}

=== FILE: confidence.dfy ===
/**
 The arithmetic of `compute_activation_confidence` in
 medleydb/cambridge/utils.py around the filter and the logistic curve:
 normalisation of the energy matrix `H` (one row per stem, one column per
 frame) by the largest frame total, zeroing of near-silent frames, and the
 output table whose first column is the frame time.
 */
module Confidence {
  import opened Arith
  import opened Energy

  /** The analysis rate the stem is resampled to (`librosa.load(..., sr=44100)`). */
  const AnalysisRate: nat := 44100

  /** Every row has `n` entries. */
  predicate Rectangular(h: seq<seq<real>>, n: nat) {
    forall r :: 0 <= r < |h| ==> |h[r]| == n
  }

  /** `np.sum(H, axis=0)[k]`: the total energy of frame `k` over all rows. */
  function ColumnSum(h: seq<seq<real>>, k: nat): real
    requires forall r :: 0 <= r < |h| ==> k < |h[r]|
  {
    if |h| == 0 then 0.0 else ColumnSum(h[..|h| - 1], k) + h[|h| - 1][k]
  }

  /** `E0 = np.sum(H, axis=0)`. */
  function FrameTotals(h: seq<seq<real>>, n: nat): (e0: seq<real>)
    requires Rectangular(h, n)
    ensures |e0| == n
    ensures forall k :: 0 <= k < n ==> e0[k] == ColumnSum(h, k)
  {
    seq(n, k requires 0 <= k < n => ColumnSum(h, k))
  }

  /** `np.argmax`: the first position holding the maximum. */
  function ArgMax(s: seq<real>): (i: nat)
    requires |s| > 0
    ensures i < |s|
    ensures forall j :: 0 <= j < |s| ==> s[j] <= s[i]
    ensures forall j :: 0 <= j < i ==> s[j] < s[i]
  {
    if |s| == 1 then 0
    else
      var i := ArgMax(s[..|s| - 1]);
      assert forall j :: 0 <= j < |s| - 1 ==> s[..|s| - 1][j] == s[j];
      if s[|s| - 1] > s[i] then |s| - 1 else i
  }

  /** `np.max`: an element no other element exceeds. */
  function Max(s: seq<real>): (m: real)
    requires |s| > 0
    ensures m in s
    ensures forall i :: 0 <= i < |s| ==> s[i] <= m
  {
    s[ArgMax(s)]
  }

  /** `np.max(E0)` is positive, or the mask zeroes every frame before a division by it could matter. */
  predicate Divisible(e0: seq<real>, threshold: real)
    requires |e0| > 0
  {
    Max(e0) > 0.0 || forall k :: 0 <= k < |e0| ==> e0[k] < threshold
  }

  /** One entry of `H` after the division by `m` and the mask on its frame total. */
  function MaskedQuotient(x: real, total: real, m: real, threshold: real): real
    requires total < threshold || m > 0.0
  {
    if total < threshold then 0.0 else x / m
  }

  /**
   `H /= np.max(E0)` followed by `H[:, E0 < amplitude_threshold] = 0.0`: the
   mask is decided on the totals computed before the division. Either the
   maximum is positive, or every frame is masked: then the NaN of a division
   by zero is overwritten by 0, as for a silent stem.
   */
  function Normalize(h: seq<seq<real>>, n: nat, threshold: real): (g: seq<seq<real>>)
    requires Rectangular(h, n) && n >= 1
    requires Divisible(FrameTotals(h, n), threshold)
    ensures |g| == |h| && Rectangular(g, n)
    ensures forall r, k :: 0 <= r < |h| && 0 <= k < n && FrameTotals(h, n)[k] < threshold ==>
      g[r][k] == 0.0
    ensures forall r, k :: 0 <= r < |h| && 0 <= k < n ==>
      g[r][k] == MaskedQuotient(h[r][k], FrameTotals(h, n)[k], Max(FrameTotals(h, n)), threshold)
  {
    var e0 := FrameTotals(h, n);
    var m := Max(e0);
    seq(|h|, r requires 0 <= r < |h| =>
      seq(n, k requires 0 <= k < n => MaskedQuotient(h[r][k], e0[k], m, threshold)))
  }

  /**
   A silent stem: with a positive threshold every frame total of an all-zero
   `H` is masked, so the normalised matrix is all zeros rather than NaN.
   */
  lemma SilentIsZero(h: seq<seq<real>>, n: nat, threshold: real)
    requires Rectangular(h, n) && n >= 1 && threshold > 0.0
    requires forall r, k :: 0 <= r < |h| && 0 <= k < n ==> h[r][k] == 0.0
    ensures Divisible(FrameTotals(h, n), threshold)
    ensures forall r, k :: 0 <= r < |h| && 0 <= k < n ==> Normalize(h, n, threshold)[r][k] == 0.0
  {
    forall k | 0 <= k < n ensures FrameTotals(h, n)[k] == 0.0 {
      ColumnSumOfZeros(h, k);
    }
  }

  lemma {:induction false} ColumnSumOfZeros(h: seq<seq<real>>, k: nat)
    requires forall i :: 0 <= i < |h| ==> k < |h[i]| && h[i][k] == 0.0
    ensures ColumnSum(h, k) == 0.0
  {
    if |h| > 0 {
      ColumnSumOfZeros(h[..|h| - 1], k);
    }
  }

  lemma {:induction false} EntryAtMostColumnSum(h: seq<seq<real>>, k: nat, r: nat)
    requires forall i :: 0 <= i < |h| ==> k < |h[i]|
    requires forall i :: 0 <= i < |h| ==> h[i][k] >= 0.0
    requires r < |h|
    ensures 0.0 <= h[r][k] <= ColumnSum(h, k)
  {
    ColumnSumNonNegative(h[..|h| - 1], k);
    if r < |h| - 1 {
      EntryAtMostColumnSum(h[..|h| - 1], k, r);
    }
  }

  lemma {:induction false} ColumnSumNonNegative(h: seq<seq<real>>, k: nat)
    requires forall i :: 0 <= i < |h| ==> k < |h[i]|
    requires forall i :: 0 <= i < |h| ==> h[i][k] >= 0.0
    ensures ColumnSum(h, k) >= 0.0
  {
    if |h| > 0 {
      ColumnSumNonNegative(h[..|h| - 1], k);
    }
  }

  /** With non-negative energies every normalised entry lies in [0, 1]. */
  lemma NormalizedInUnitInterval(h: seq<seq<real>>, n: nat, threshold: real)
    requires Rectangular(h, n) && n >= 1
    requires Divisible(FrameTotals(h, n), threshold)
    requires forall r, k :: 0 <= r < |h| && 0 <= k < n ==> h[r][k] >= 0.0
    ensures forall r, k :: 0 <= r < |h| && 0 <= k < n ==>
      0.0 <= Normalize(h, n, threshold)[r][k] <= 1.0
  {
    forall r, k | 0 <= r < |h| && 0 <= k < n
      ensures 0.0 <= Normalize(h, n, threshold)[r][k] <= 1.0
    {
      NormalizedEntryInUnitInterval(h, n, threshold, r, k);
    }
  }

  lemma NormalizedEntryInUnitInterval(h: seq<seq<real>>, n: nat, threshold: real, r: nat, k: nat)
    requires Rectangular(h, n) && n >= 1
    requires Divisible(FrameTotals(h, n), threshold)
    requires forall r, k :: 0 <= r < |h| && 0 <= k < n ==> h[r][k] >= 0.0
    requires r < |h| && k < n
    ensures 0.0 <= Normalize(h, n, threshold)[r][k] <= 1.0
  {
    var e0 := FrameTotals(h, n);
    var m := Max(e0);
    if e0[k] >= threshold {
      EntryAtMostColumnSum(h, k, r);
      assert Normalize(h, n, threshold)[r][k] == h[r][k] / m;
      QuotientInUnitInterval(h[r][k], m);
    }
  }

  lemma QuotientInUnitInterval(x: real, m: real)
    requires m > 0.0 && 0.0 <= x <= m
    ensures 0.0 <= x / m <= 1.0
  {
  }

  /** `Normalize` of a matrix with a single row `e`, returned as that row. */
  function NormalizeRow(e: seq<real>, threshold: real): (g: seq<real>)
    requires |e| > 0 && Divisible(e, threshold)
    ensures |g| == |e|
    ensures forall k :: 0 <= k < |e| && e[k] < threshold ==> g[k] == 0.0
    ensures forall k :: 0 <= k < |e| && e[k] >= threshold ==> g[k] == e[k] / Max(e)
    ensures NonNegative(e) ==> forall k :: 0 <= k < |g| ==> 0.0 <= g[k] <= 1.0
  {
    var h := [e];
    assert FrameTotals(h, |e|) == e by {
      forall k | 0 <= k < |e| ensures ColumnSum(h, k) == e[k] {
        assert h[..0] == [];
      }
    }
    var g := Normalize(h, |e|, threshold);
    assert NonNegative(e) ==> forall k :: 0 <= k < |e| ==> 0.0 <= g[0][k] <= 1.0 by {
      if NonNegative(e) {
        NormalizedInUnitInterval(h, |e|, threshold);
      }
    }
    g[0]
  }

  /** The energies of `e` recorded with gain `c`. */
  function Scale(c: real, e: seq<real>): (r: seq<real>)
    ensures |r| == |e|
    ensures forall k :: 0 <= k < |e| ==> r[k] == Gain(c, e[k])
  {
    seq(|e|, k requires 0 <= k < |e| => Gain(c, e[k]))
  }

  /** One energy times a gain; a function so that the product stays out of the quantifiers. */
  function Gain(c: real, x: real): real {
    c * x
  }

  /** An element of `s` that bounds every element is its maximum. */
  lemma MaxIsBound(s: seq<real>, m: real)
    requires m in s && forall i :: 0 <= i < |s| ==> s[i] <= m
    ensures Max(s) == m
  {
  }

  /** A positive gain scales the maximum with the energies. */
  lemma MaxScale(c: real, e: seq<real>)
    requires |e| > 0 && c > 0.0
    ensures Max(Scale(c, e)) == Gain(c, Max(e))
  {
    var s, m := Scale(c, e), Max(e);
    forall i | 0 <= i < |s| ensures s[i] <= Gain(c, m) {
      GainMonotone(c, e[i], m);
    }
    assert s[ArgMax(e)] == Gain(c, m);
    MaxIsBound(s, Gain(c, m));
  }

  lemma GainMonotone(c: real, x: real, y: real)
    requires c > 0.0 && x <= y
    ensures Gain(c, x) <= Gain(c, y)
  {
  }

  lemma GainCancels(c: real, x: real, m: real)
    requires c > 0.0 && m > 0.0
    ensures Gain(c, m) > 0.0 && Gain(c, x) / Gain(c, m) == x / m
  {
    assert Gain(c, m) > 0.0 by { MulPositive(c, m); }
    assert Gain(c, x) == (x / m) * Gain(c, m);
  }

  lemma MulPositive(a: real, b: real)
    requires a > 0.0 && b > 0.0
    ensures a * b > 0.0
  {
  }

  /**
   Normalising by the loudest frame makes the confidence independent of the
   recording gain: scaling every energy by `c > 0` leaves the value of a frame
   that stays above the threshold unchanged.
   */
  lemma NormalizeRowGain(e: seq<real>, c: real, threshold: real, k: nat)
    requires |e| > 0 && c > 0.0 && Divisible(e, threshold)
    requires k < |e| && e[k] >= threshold && Gain(c, e[k]) >= threshold
    ensures Divisible(Scale(c, e), threshold)
    ensures NormalizeRow(Scale(c, e), threshold)[k] == NormalizeRow(e, threshold)[k]
  {
    var m := Max(e);
    assert m > 0.0;
    MaxScale(c, e);
    GainCancels(c, e[k], m);
  }

  /** The loudest frame normalises to exactly 1 unless the mask zeroes it. */
  lemma PeakIsOne(e: seq<real>, threshold: real)
    requires |e| > 0 && Max(e) > 0.0 && Max(e) >= threshold
    ensures NormalizeRow(e, threshold)[ArgMax(e)] == 1.0
  {
    var i := ArgMax(e);
    DivSelf(e[i]);
  }

  lemma DivSelf(x: real)
    requires x > 0.0
    ensures x / x == 1.0
  {
  }

  /**
   The single-stem case the source runs: `H` is the one energy row of the
   loaded stem, and with a non-negative window and square root every
   confidence value before the filter lies in [0, 1].
   */
  function StemNormalizedEnergy(wave: seq<real>, winLen: nat, win: seq<real>, root: real -> real, threshold: real): (g: seq<real>)
    requires winLen >= 2 && |win| == winLen
    requires Divisible(TrackEnergy(wave, winLen, win, root), threshold)
    ensures |g| == FrameCount(|Padded(wave, winLen)|, winLen)
    ensures NonNegative(win) && RootNonNegative(root) ==> forall k :: 0 <= k < |g| ==> 0.0 <= g[k] <= 1.0
  {
    NormalizeRow(TrackEnergy(wave, winLen, win, root), threshold)
  }

  /** `librosa.core.frames_to_time(k, sr=rate, hop_length=win_len // 2)`. */
  function FrameTime(k: nat, winLen: nat): (t: real)
    ensures t >= 0.0
    ensures t * AnalysisRate as real == (k * (winLen / 2)) as real
  {
    (k * HopLength(winLen)) as real / AnalysisRate as real
  }

  /**
   `np.vstack((time, C)).T`: one row per frame, holding the frame time and
   then the confidence of each stem in that frame.
   */
  function ActivationTable(c: seq<seq<real>>, n: nat, winLen: nat): (t: seq<seq<real>>)
    requires Rectangular(c, n)
    ensures |t| == n
    ensures forall k :: 0 <= k < n ==> |t[k]| == |c| + 1 && t[k][0] == FrameTime(k, winLen)
    ensures forall k, r :: 0 <= k < n && 0 <= r < |c| ==> t[k][r + 1] == c[r][k]
  {
    seq(n, k requires 0 <= k < n => [FrameTime(k, winLen)] + seq(|c|, r requires 0 <= r < |c| => c[r][k]))
  }

  /** The time column starts at 0 and strictly increases from row to row. */
  lemma TimeColumnIncreasing(c: seq<seq<real>>, n: nat, winLen: nat)
    requires Rectangular(c, n) && winLen >= 2
    ensures n > 0 ==> ActivationTable(c, n, winLen)[0][0] == 0.0
    ensures forall i, j :: 0 <= i < j < n ==>
      ActivationTable(c, n, winLen)[i][0] < ActivationTable(c, n, winLen)[j][0]
  {
    var t := ActivationTable(c, n, winLen);
    forall i, j | 0 <= i < j < n ensures t[i][0] < t[j][0] {
      MulStrictMonotone(i, j, HopLength(winLen));
    }
  }
}

=== FILE: energy.dfy ===
/**
 The energy envelope of one audio stem (`track_energy` and `hwr` in
 medleydb/cambridge/utils.py): zero-padding at both ends, cutting into
 half-overlapping frames, half-wave rectification, compression and a
 windowed mean per frame.

 The compression is `x ** 0.5`; the model takes it as a parameter `root`, of
 which it only assumes that it maps non-negative values to non-negative
 values. The window coefficients (a Hann window in the source) are a given
 sequence.
 */
module Energy {
  import opened Arith

  function Abs(x: real): real {
    if x < 0.0 then -x else x
  }

  /** Half-wave rectification `(x + |x|) / 2`. */
  function Hwr(x: real): (r: real)
    ensures r >= 0.0
    ensures x >= 0.0 ==> r == x
    ensures x < 0.0 ==> r == 0.0
  {
    (x + Abs(x)) / 2.0
  }

  lemma HwrIdempotent(x: real)
    ensures Hwr(Hwr(x)) == Hwr(x)
  {
  }

  /** Stride between frames: `win_len // 2`. */
  function HopLength(winLen: nat): nat {
    winLen / 2
  }

  /** Number of zeros placed before the signal: `win_len - hop_len`; at least one when `win_len > 0`. */
  function PrePadLength(winLen: nat): (n: nat)
    ensures winLen > 0 ==> n >= 1
  {
    winLen - HopLength(winLen)
  }

  function Zeros(n: nat): (z: seq<real>)
    ensures |z| == n
    ensures forall i :: 0 <= i < n ==> z[i] == 0.0
  {
    seq(n, _ => 0.0)
  }

  /** `np.lib.pad(wave, (win_len - hop_len, 0))`: zeros in front, the signal unchanged after them. */
  function PrePad(wave: seq<real>, winLen: nat): (p: seq<real>)
    ensures |p| == PrePadLength(winLen) + |wave|
    ensures forall i :: 0 <= i < PrePadLength(winLen) ==> p[i] == 0.0
    ensures p[PrePadLength(winLen)..] == wave
  {
    Zeros(PrePadLength(winLen)) + wave
  }

  /** `librosa.util.fix_length`: cut `x` down to `size` samples, or fill it up to `size` with zeros. */
  function FixLength(x: seq<real>, size: nat): (r: seq<real>)
    ensures |r| == size
    ensures forall i :: 0 <= i < size && i < |x| ==> r[i] == x[i]
    ensures forall i :: |x| <= i < size ==> r[i] == 0.0
  {
    if |x| >= size then x[..size] else x + Zeros(size - |x|)
  }

  /** `int(win_len * np.ceil(len / win_len))`. */
  function PaddedSize(len: nat, winLen: nat): nat
    requires winLen > 0
  {
    winLen * ((len + winLen - 1) / winLen)
  }

  lemma PaddedSizeBounds(len: nat, winLen: nat)
    requires winLen > 0
    ensures PaddedSize(len, winLen) % winLen == 0
    ensures len <= PaddedSize(len, winLen) < len + winLen
  {
    var q := (len + winLen - 1) / winLen;
    DivBounds(len + winLen - 1, winLen);
    MultipleMod(q, winLen);
  }

  /**
   Post-padding: the pre-padded signal followed by zeros up to the next
   multiple of `win_len`; no sample is lost.
   */
  function PostPad(p: seq<real>, winLen: nat): (r: seq<real>)
    requires winLen > 0
    ensures |r| % winLen == 0
    ensures |p| <= |r| < |p| + winLen
    ensures r[..|p|] == p
    ensures forall i :: |p| <= i < |r| ==> r[i] == 0.0
  {
    PaddedSizeBounds(|p|, winLen);
    FixLength(p, PaddedSize(|p|, winLen))
  }

  /** The post-padded length is the least multiple of `win_len` that holds the whole signal. */
  lemma {:induction false} PostPadIsLeastMultiple(p: seq<real>, winLen: nat, m: nat)
    requires winLen > 0
    requires m % winLen == 0 && |p| <= m
    ensures |PostPad(p, winLen)| <= m
  {
    var r := |PostPad(p, winLen)|;
    var q, t := r / winLen, m / winLen;
    DivBounds(r, winLen);
    DivBounds(m, winLen);
    if q <= t {
      MulMonotone(q, t, winLen);
    } else {
      MulStrictMonotone(t, q, winLen);
    }
  }

  /** The signal after both paddings. */
  function Padded(wave: seq<real>, winLen: nat): (p: seq<real>)
    requires winLen > 0
    ensures |p| % winLen == 0
    ensures |p| >= winLen
    ensures PrePadLength(winLen) + |wave| <= |p| < PrePadLength(winLen) + |wave| + winLen
    ensures forall i :: 0 <= i < |wave| ==> p[PrePadLength(winLen) + i] == wave[i]
    ensures forall i :: 0 <= i < PrePadLength(winLen) ==> p[i] == 0.0
    ensures forall i :: PrePadLength(winLen) + |wave| <= i < |p| ==> p[i] == 0.0
  {
    var pre := PrePad(wave, winLen);
    var r := PostPad(pre, winLen);
    assert forall i :: 0 <= i < |pre| ==> r[i] == pre[i] by {
      forall i | 0 <= i < |pre| ensures r[i] == pre[i] {
        assert r[..|pre|][i] == r[i];
      }
    }
    assert forall i :: 0 <= i < PrePadLength(winLen) ==> r[i] == 0.0;
    assert forall i :: 0 <= i < |wave| ==> pre[PrePadLength(winLen) + i] == wave[i] by {
      forall i | 0 <= i < |wave| ensures pre[PrePadLength(winLen) + i] == wave[i] {
        assert pre[PrePadLength(winLen)..][i] == wave[i];
      }
    }
    assert |r| >= winLen by {
      assert PrePadLength(winLen) >= 1;
      if |r| < winLen {
        DivUnique(|r|, winLen, 0);
      }
    }
    r
  }

  /** First sample of frame `k`. */
  function FrameStart(k: nat, winLen: nat): nat {
    k * HopLength(winLen)
  }

  /**
   `librosa.util.frame`'s frame count `1 + (len - win_len) // hop_len`: every
   counted frame lies inside the signal and the next one would not.
   */
  function FrameCount(len: nat, winLen: nat): (n: nat)
    requires winLen >= 2 && len >= winLen
    ensures n >= 1
    ensures forall k: nat :: k < n ==> FrameStart(k, winLen) + winLen <= len
    ensures FrameStart(n, winLen) + winLen > len
  {
    var h := HopLength(winLen);
    var q := (len - winLen) / h;
    DivBounds(len - winLen, h);
    assert forall k: nat :: k <= q ==> FrameStart(k, winLen) <= q * h by {
      forall k: nat | k <= q ensures FrameStart(k, winLen) <= q * h {
        MulMonotone(k, q, h);
      }
    }
    assert FrameStart(q + 1, winLen) == q * h + h;
    1 + q
  }

  /** `wavmat[:, k]`: the `win_len` samples of frame `k`. */
  function Frame(p: seq<real>, k: nat, winLen: nat): (f: seq<real>)
    requires FrameStart(k, winLen) + winLen <= |p|
    ensures |f| == winLen
    ensures forall j :: 0 <= j < winLen ==> f[j] == p[FrameStart(k, winLen) + j]
  {
    p[FrameStart(k, winLen)..FrameStart(k, winLen) + winLen]
  }

  /** `hwr(frame) ** 0.5`, elementwise. */
  function Envelope(frame: seq<real>, root: real -> real): (v: seq<real>)
    ensures |v| == |frame|
    ensures forall j :: 0 <= j < |frame| ==> v[j] == root(Hwr(frame[j]))
  {
    seq(|frame|, j requires 0 <= j < |frame| => root(Hwr(frame[j])))
  }

  function Dot(xs: seq<real>, ys: seq<real>): real
    requires |xs| == |ys|
  {
    if |xs| == 0 then 0.0 else Dot(xs[..|xs| - 1], ys[..|ys| - 1]) + xs[|xs| - 1] * ys[|ys| - 1]
  }

  lemma {:induction false} DotNonNegative(xs: seq<real>, ys: seq<real>)
    requires |xs| == |ys|
    requires forall i :: 0 <= i < |xs| ==> xs[i] >= 0.0 && ys[i] >= 0.0
    ensures Dot(xs, ys) >= 0.0
  {
    if |xs| > 0 {
      DotNonNegative(xs[..|xs| - 1], ys[..|ys| - 1]);
    }
  }

  /** One energy value: the mean over the frame of the compressed samples times the window. */
  function FrameEnergy(frame: seq<real>, win: seq<real>, root: real -> real): (e: real)
    requires |frame| == |win| > 0
    ensures e * |win| as real == Dot(Envelope(frame, root), win)
  {
    Dot(Envelope(frame, root), win) / |win| as real
  }

  ghost predicate NonNegative(xs: seq<real>) {
    forall i :: 0 <= i < |xs| ==> xs[i] >= 0.0
  }

  /** The compression never makes a non-negative value negative (true of the square root). */
  ghost predicate RootNonNegative(root: real -> real) {
    forall x: real :: x >= 0.0 ==> root(x) >= 0.0
  }

  lemma FrameEnergyNonNegative(frame: seq<real>, win: seq<real>, root: real -> real)
    requires |frame| == |win| > 0
    requires NonNegative(win) && RootNonNegative(root)
    ensures FrameEnergy(frame, win, root) >= 0.0
  {
    var v := Envelope(frame, root);
    assert forall i :: 0 <= i < |v| ==> v[i] == root(Hwr(frame[i]));
    DotNonNegative(v, win);
    var d := Dot(v, win);
    var w := |win| as real;
    assert w > 0.0;
    assert d / w >= 0.0;
  }

  /**
   `track_energy(wave, win_len, win)`: one value per frame of the padded
   signal, each the windowed mean of its frame; all of them non-negative when
   the window coefficients are.
   */
  function TrackEnergy(wave: seq<real>, winLen: nat, win: seq<real>, root: real -> real): (e: seq<real>)
    requires winLen >= 2 && |win| == winLen
    ensures |e| == FrameCount(|Padded(wave, winLen)|, winLen)
    ensures forall k :: 0 <= k < |e| ==>
      e[k] == FrameEnergy(Frame(Padded(wave, winLen), k, winLen), win, root)
    ensures NonNegative(win) && RootNonNegative(root) ==> NonNegative(e)
  {
    var p := Padded(wave, winLen);
    var n := FrameCount(|p|, winLen);
    var e := seq(n, k requires 0 <= k < n => FrameEnergy(Frame(p, k, winLen), win, root));
    assert NonNegative(win) && RootNonNegative(root) ==> NonNegative(e) by {
      if NonNegative(win) && RootNonNegative(root) {
        forall k | 0 <= k < n ensures e[k] >= 0.0 {
          FrameEnergyNonNegative(Frame(p, k, winLen), win, root);
        }
      }
    }
    e
  }

  /**
   A constant signal gives the same energy in every frame that lies wholly
   inside the original samples; only frames touching the padding can differ.
   */
  lemma ConstantSignalInteriorFrames(wave: seq<real>, c: real, winLen: nat, win: seq<real>, root: real -> real, k1: nat, k2: nat)
    requires winLen >= 2 && |win| == winLen
    requires forall i :: 0 <= i < |wave| ==> wave[i] == c
    requires PrePadLength(winLen) <= FrameStart(k1, winLen)
    requires FrameStart(k1, winLen) + winLen <= PrePadLength(winLen) + |wave|
    requires PrePadLength(winLen) <= FrameStart(k2, winLen)
    requires FrameStart(k2, winLen) + winLen <= PrePadLength(winLen) + |wave|
    ensures k1 < |TrackEnergy(wave, winLen, win, root)|
    ensures k2 < |TrackEnergy(wave, winLen, win, root)|
    ensures TrackEnergy(wave, winLen, win, root)[k1] == TrackEnergy(wave, winLen, win, root)[k2]
  {
    var p := Padded(wave, winLen);
    var n := FrameCount(|p|, winLen);
    var pre := PrePadLength(winLen);
    forall k: nat | pre <= FrameStart(k, winLen) && FrameStart(k, winLen) + winLen <= pre + |wave|
      ensures k < n
      ensures Frame(p, k, winLen) == seq(winLen, _ => c)
    {
      if k >= n {
        MulMonotone(n, k, HopLength(winLen));
      }
      var f := Frame(p, k, winLen);
      forall j | 0 <= j < winLen ensures f[j] == c {
        var i := FrameStart(k, winLen) + j - pre;
        assert p[pre + i] == wave[i];
      }
    }
  }
}

=== FILE: instrumentfiles.dfy ===
/**
 The Cambridge Music Technology helpers (`get_instruments` in
 cambridge/cambridge/utils.py and medleydb/cambridge/utils.py, and the
 acoustic-guitar selection of their scripts). The recursive search for
 `.wav` files under the audio directory is replaced by the sequence of files
 it yields.
 */
module InstrumentFiles {
  import opened Strings
  import opened Ordering

  /** A file found under the audio directory: its parent directory's name and its own name. */
  datatype AudioFile = AudioFile(parent: string, name: string)

  /** `name.split(".wav")[0]`. */
  function StripWav(name: string): (r: string)
    ensures r <= name && !Contains(r, ".wav")
    ensures !Contains(name, ".wav") ==> r == name
    ensures Contains(name, ".wav") ==> OccursAt(name, ".wav", |r|)
  {
    SplitFirst(name, ".wav")
  }

  /** The stripped name of every file, in walk order. */
  function StrippedNames(files: seq<AudioFile>): (r: seq<string>)
    ensures |r| == |files|
    ensures forall i :: 0 <= i < |files| ==> r[i] == StripWav(files[i].name)
  {
    seq(|files|, i requires 0 <= i < |files| => StripWav(files[i].name))
  }

  /** `get_instruments`: `list(sorted(set(...)))` of the stripped names. */
  function GetInstruments(files: seq<AudioFile>): (r: seq<string>)
    ensures StrictlyAscending(r)
    ensures forall x :: x in r <==> exists i :: 0 <= i < |files| && StripWav(files[i].name) == x
    ensures forall x :: x in r ==> !Contains(x, ".wav")
  {
    var names := StrippedNames(files);
    var r := SortedSet(names);
    assert forall x :: x in r <==> x in Elems(names);
    r
  }

  /** The result depends only on which names were found, not on the order the walk yields them. */
  lemma GetInstrumentsOrderIndependent(a: seq<AudioFile>, b: seq<AudioFile>)
    requires forall f :: f in a <==> f in b
    ensures GetInstruments(a) == GetInstruments(b)
  {
    var ra, rb := GetInstruments(a), GetInstruments(b);
    forall x | x in Elems(ra) ensures x in Elems(rb) {
      var i :| 0 <= i < |a| && StripWav(a[i].name) == x;
      assert a[i] in b;
      var j :| 0 <= j < |b| && b[j] == a[i];
    }
    forall x | x in Elems(rb) ensures x in Elems(ra) {
      var j :| 0 <= j < |b| && StripWav(b[j].name) == x;
      assert b[j] in a;
      var i :| 0 <= i < |a| && a[i] == b[j];
    }
    AscendingUnique(ra, rb);
  }

  /** The names the acoustic-guitar pattern looks for. */
  predicate KeywordAt(s: string, i: nat) {
    OccursAt(s, "acoustic", i) || OccursAt(s, "Acoustic", i) ||
    OccursAt(s, "acGtr", i) || OccursAt(s, "AcGtr", i)
  }

  /**
   `re.match(r".*[aA]coustic.*|.*[aA]cGtr.*", s)`: the match is anchored at
   the start and `.` does not cross a line break, so a keyword must begin
   before the first `'\n'`; what follows it is matched by the trailing `.*`
   whatever it is.
   */
  predicate IsAcousticGuitar(s: string)
    ensures IsAcousticGuitar(s) ==> |s| >= 5
  {
    exists i: nat :: i <= |s| && '\n' !in s[..i] && KeywordAt(s, i)
  }

  /** On a single-line name the pattern is a plain search for any of the four keywords. */
  lemma AcousticGuitarOnOneLine(s: string)
    requires '\n' !in s
    ensures IsAcousticGuitar(s) <==> exists i: nat :: i <= |s| && KeywordAt(s, i)
  {
    if exists i: nat :: i <= |s| && KeywordAt(s, i) {
      var i: nat :| i <= |s| && KeywordAt(s, i);
      assert '\n' !in s[..i];
    }
  }

  /** A keyword after a line break is not found by `re.match`. */
  lemma AcousticGuitarStopsAtNewline()
    ensures !IsAcousticGuitar("\nacoustic")
    ensures OccursAt("\nacoustic", "acoustic", 1)
  {
    var s := "\nacoustic";
    forall i: nat | 1 <= i <= |s| ensures '\n' in s[..i] {
      assert s[..i][0] == '\n';
    }
    assert !KeywordAt(s, 0) by {
      assert s[0] == '\n';
    }
    assert s[1..9] == "acoustic";
  }

  /** The files the script selects, in walk order, each with its parent directory. */
  function AcousticGuitarTracks(files: seq<AudioFile>): (r: seq<AudioFile>)
    ensures |r| <= |files|
    ensures forall f :: f in r <==> f in files && IsAcousticGuitar(StripWav(f.name))
  {
    if |files| == 0 then []
    else
      var init := files[..|files| - 1];
      var last := files[|files| - 1];
      assert files == init + [last];
      AcousticGuitarTracks(init) + (if IsAcousticGuitar(StripWav(last.name)) then [last] else [])
  }

  /** Selecting from a concatenation selects from each part, keeping the walk order. */
  lemma {:induction false} AcousticGuitarTracksAppend(a: seq<AudioFile>, b: seq<AudioFile>)
    ensures AcousticGuitarTracks(a + b) == AcousticGuitarTracks(a) + AcousticGuitarTracks(b)
    decreases |b|
  {
    if |b| == 0 {
      assert a + b == a;
    } else {
      var b' := b[..|b| - 1];
      assert (a + b)[..|a + b| - 1] == a + b';
      assert (a + b)[|a + b| - 1] == b[|b| - 1];
      AcousticGuitarTracksAppend(a, b');
    }
  }
}

=== FILE: metadata.dfy ===
/**
 The MedleyDB metadata resolver of medleydb/medleydb/utils.py. The `stems`
 column of the metadata table holds, per track, a dictionary of stem records;
 here each track is the sequence of its records in dictionary order, already
 parsed.
 */
module Metadata {
  import opened Strings

  /** One stem record: the stem's file name and its instrument label. */
  datatype Stem = Stem(filename: string, instrument: string)

  /** The records of one track, in the order the dictionary yields them. */
  type Track = seq<Stem>

  /** No value occurs twice. */
  predicate NoDuplicates<T(==)>(xs: seq<T>) {
    forall i, j :: 0 <= i < j < |xs| ==> xs[i] != xs[j]
  }

  /** `record` is one of the records of some track. */
  predicate HasRecord(tracks: seq<Track>, record: Stem) {
    exists t, i :: 0 <= t < |tracks| && 0 <= i < |tracks[t]| && tracks[t][i] == record
  }

  /** The instrument labels of one track. */
  function TrackInstrumentSet(track: Track): set<string> {
    set i | 0 <= i < |track| :: track[i].instrument
  }

  /** `get_instruments_list`: every instrument label of every record of every track. */
  function InstrumentsList(tracks: seq<Track>): (r: set<string>)
    ensures forall x :: x in r <==>
      exists t, i :: 0 <= t < |tracks| && 0 <= i < |tracks[t]| && tracks[t][i].instrument == x
  {
    if |tracks| == 0 then {}
    else
      var init := tracks[..|tracks| - 1];
      var r := InstrumentsList(init) + TrackInstrumentSet(tracks[|tracks| - 1]);
      assert forall t :: 0 <= t < |init| ==> init[t] == tracks[t];
      assert forall x :: x in r <==>
        exists t, i :: 0 <= t < |tracks| && 0 <= i < |tracks[t]| && tracks[t][i].instrument == x by {
        forall x | x in r
          ensures exists t, i :: 0 <= t < |tracks| && 0 <= i < |tracks[t]| && tracks[t][i].instrument == x
        {
          if x !in InstrumentsList(init) {
            var i :| 0 <= i < |tracks[|tracks| - 1]| && tracks[|tracks| - 1][i].instrument == x;
          }
        }
        forall x, t, i | 0 <= t < |tracks| && 0 <= i < |tracks[t]| && tracks[t][i].instrument == x
          ensures x in r
        {
          if t < |tracks| - 1 {
            assert init[t][i].instrument == x;
          }
        }
      }
      r
  }

  /** `s.replace(a, b)` for single characters. */
  function ReplaceChar(s: string, a: char, b: char): (r: string)
    ensures |r| == |s|
    ensures a != b ==> a !in r
    ensures forall i :: 0 <= i < |s| && s[i] != a ==> r[i] == s[i]
    ensures forall i :: 0 <= i < |s| && s[i] == a ==> r[i] == b
  {
    seq(|s|, i requires 0 <= i < |s| => if s[i] == a then b else s[i])
  }

  /** The value `get_instruments_dict` gives a label: spaces and slashes become underscores. */
  function Canonicalize(text: string): (r: string)
    ensures |r| == |text|
    ensures ' ' !in r && '/' !in r
    ensures forall i :: 0 <= i < |text| && text[i] != ' ' && text[i] != '/' ==> r[i] == text[i]
    ensures forall i :: 0 <= i < |text| && (text[i] == ' ' || text[i] == '/') ==> r[i] == '_'
  {
    ReplaceChar(ReplaceChar(text, ' ', '_'), '/', '_')
  }

  /** A label is left as it is exactly when it has no space and no slash. */
  lemma CanonicalFixedPoints(text: string)
    ensures Canonicalize(text) == text <==> (' ' !in text && '/' !in text)
  {
    if ' ' !in text && '/' !in text {
      assert forall i :: 0 <= i < |text| ==> Canonicalize(text)[i] == text[i];
    }
  }

  lemma CanonicalizeIdempotent(text: string)
    ensures Canonicalize(Canonicalize(text)) == Canonicalize(text)
  {
    CanonicalFixedPoints(Canonicalize(text));
  }

  /** Distinct labels may share a value: the dictionary is not one-to-one. */
  lemma CanonicalizeMerges()
    ensures Canonicalize("a b") == Canonicalize("a/b") == "a_b"
  {
    assert Canonicalize("a b")[1] == '_' && Canonicalize("a/b")[1] == '_';
  }

  /** `get_instruments_dict`: each label of the set mapped to its canonical form. */
  function InstrumentsDict(instruments: set<string>): (d: map<string, string>)
    ensures d.Keys == instruments
    ensures forall k :: k in d ==> |d[k]| == |k| && ' ' !in d[k] && '/' !in d[k]
    ensures forall k :: k in d ==> (d[k] == k <==> ' ' !in k && '/' !in k)
    ensures forall k, i :: k in d && 0 <= i < |k| ==>
      d[k][i] == (if k[i] == ' ' || k[i] == '/' then '_' else k[i])
  {
    var d := map i | i in instruments :: Canonicalize(i);
    assert forall k :: k in d ==> (d[k] == k <==> ' ' !in k && '/' !in k) by {
      forall k | k in d ensures d[k] == k <==> ' ' !in k && '/' !in k {
        CanonicalFixedPoints(k);
      }
    }
    d
  }

  /** The file names of the records of one track whose instrument is exactly `name`, in order. */
  function MatchingFilenames(track: Track, name: string): (r: seq<string>)
    ensures |r| <= |track|
    ensures forall f :: f in r <==> exists i :: 0 <= i < |track| && track[i] == Stem(f, name)
  {
    if |track| == 0 then []
    else
      var init := track[..|track| - 1];
      var last := track[|track| - 1];
      var r := MatchingFilenames(init, name) + (if last.instrument == name then [last.filename] else []);
      assert forall i :: 0 <= i < |init| ==> init[i] == track[i];
      assert forall f :: f in r ==> exists i :: 0 <= i < |track| && track[i] == Stem(f, name) by {
        forall f | f in r ensures exists i :: 0 <= i < |track| && track[i] == Stem(f, name) {
          if f !in MatchingFilenames(init, name) {
            assert track[|track| - 1] == Stem(f, name);
          }
        }
      }
      r
  }

  /** One record contributes its file name exactly when its instrument matches, and then once. */
  lemma MatchingFilenamesOne(s: Stem, name: string)
    ensures MatchingFilenames([s], name) == if s.instrument == name then [s.filename] else []
  {
    assert [s][..0] == [];
  }

  /**
   The matches of two runs of records are those of the first run followed by
   those of the second; with `MatchingFilenamesOne` this fixes the order and
   the number of every file name in the result.
   */
  lemma {:induction false} MatchingFilenamesAppend(a: Track, b: Track, name: string)
    ensures MatchingFilenames(a + b, name) == MatchingFilenames(a, name) + MatchingFilenames(b, name)
    decreases |b|
  {
    if |b| == 0 {
      assert a + b == a;
    } else {
      var b' := b[..|b| - 1];
      assert (a + b)[..|a + b| - 1] == a + b';
      assert (a + b)[|a + b| - 1] == b[|b| - 1];
      MatchingFilenamesAppend(a, b', name);
    }
  }

  /** `get_instrument_stems`: the matching file names, track after track, in iteration order. */
  function InstrumentStems(tracks: seq<Track>, name: string): (r: seq<string>)
    ensures forall f :: f in r <==> HasRecord(tracks, Stem(f, name))
  {
    if |tracks| == 0 then []
    else
      var init := tracks[..|tracks| - 1];
      var r := InstrumentStems(init, name) + MatchingFilenames(tracks[|tracks| - 1], name);
      assert forall t :: 0 <= t < |init| ==> init[t] == tracks[t];
      assert forall f :: HasRecord(tracks, Stem(f, name)) ==> f in r by {
        forall f | HasRecord(tracks, Stem(f, name)) ensures f in r {
          var t, i :| 0 <= t < |tracks| && 0 <= i < |tracks[t]| && tracks[t][i] == Stem(f, name);
          if t < |tracks| - 1 {
            assert init[t][i] == Stem(f, name);
          }
        }
      }
      assert forall f :: f in r ==> HasRecord(tracks, Stem(f, name)) by {
        forall f | f in r ensures HasRecord(tracks, Stem(f, name)) {
          if f in InstrumentStems(init, name) {
            var t, i :| 0 <= t < |init| && 0 <= i < |init[t]| && init[t][i] == Stem(f, name);
            assert tracks[t][i] == Stem(f, name);
          } else {
            var i :| 0 <= i < |tracks[|tracks| - 1]| && tracks[|tracks| - 1][i] == Stem(f, name);
          }
        }
      }
      r
  }

  /** The result for a batch of tracks is the result for the first part followed by that for the second. */
  lemma {:induction false} InstrumentStemsAppend(a: seq<Track>, b: seq<Track>, name: string)
    ensures InstrumentStems(a + b, name) == InstrumentStems(a, name) + InstrumentStems(b, name)
    decreases |b|
  {
    if |b| == 0 {
      assert a + b == a;
    } else {
      var ab, b', last := a + b, b[..|b| - 1], b[|b| - 1];
      assert ab[..|ab| - 1] == a + b';
      assert ab[|ab| - 1] == last;
      assert InstrumentStems(ab, name) == InstrumentStems(a + b', name) + MatchingFilenames(last, name);
      assert InstrumentStems(b, name) == InstrumentStems(b', name) + MatchingFilenames(last, name);
      InstrumentStemsAppend(a, b', name);
    }
  }

  /** A single track contributes its matching records in its own order. */
  lemma InstrumentStemsSingle(track: Track, name: string)
    ensures InstrumentStems([track], name) == MatchingFilenames(track, name)
  {
    assert [track][..0] == [];
  }

  /** A text is listed exactly when looking it up finds at least one stem. */
  lemma ListedIffHasStems(tracks: seq<Track>, name: string)
    ensures name in InstrumentsList(tracks) <==> |InstrumentStems(tracks, name)| > 0
  {
    if name in InstrumentsList(tracks) {
      var t, i :| 0 <= t < |tracks| && 0 <= i < |tracks[t]| && tracks[t][i].instrument == name;
      assert HasRecord(tracks, Stem(tracks[t][i].filename, name));
      assert tracks[t][i].filename in InstrumentStems(tracks, name);
    }
    if |InstrumentStems(tracks, name)| > 0 {
      var f := InstrumentStems(tracks, name)[0];
      assert HasRecord(tracks, Stem(f, name));
    }
  }

  /** The separator between the track id and the stem number in a stem file name. */
  const StemMarker: string := "_STEM"

  lemma StemMarkerBorderless()
    ensures |StemMarker| > 0 && Borderless(StemMarker)
  {
    forall k | 0 < k < |StemMarker| ensures StemMarker[..k] != StemMarker[|StemMarker| - k..] {
      assert StemMarker[..k][0] == '_';
      assert StemMarker[|StemMarker| - k..][0] != '_';
    }
  }

  /** `s.split("_STEM")[0]`: the track id of a stem file name. */
  function TrackId(filename: string): (r: string)
    ensures r <= filename && !Contains(r, StemMarker)
    ensures !Contains(filename, StemMarker) ==> r == filename
    ensures Contains(filename, StemMarker) ==> OccursAt(filename, StemMarker, |r|)
  {
    SplitFirst(filename, StemMarker)
  }

  /** A MedleyDB stem name `<track>_STEM_<nn>.wav` yields its track back. */
  lemma TrackIdOfStemFile(track: string, rest: string)
    requires !Contains(track, StemMarker)
    ensures TrackId(track + StemMarker + rest) == track
  {
    StemMarkerBorderless();
    SplitFirstOfJoin(track, StemMarker, rest);
  }

  /** `list(set(xs))`: each value of `xs` once. Python promises no order; this keeps first occurrences. */
  method Distinct<T(==)>(xs: seq<T>) returns (r: seq<T>)
    ensures NoDuplicates(r)
    ensures forall x :: x in r <==> x in xs
    ensures |r| <= |xs|
  {
    r := [];
    var i := 0;
    while i < |xs|
      invariant 0 <= i <= |xs|
      invariant NoDuplicates(r)
      invariant forall x :: x in r <==> x in xs[..i]
      invariant |r| <= i
    {
      assert xs[..i + 1] == xs[..i] + [xs[i]];
      if xs[i] !in r {
        r := r + [xs[i]];
      }
      i := i + 1;
    }
    assert xs[..i] == xs;
  }

  /**
   `get_instrument_tracks`: the distinct track ids of the given stem file
   names. The instrument name is accepted and not used.
   */
  method InstrumentTracks(instrumentStems: seq<string>, instrumentName: string) returns (tracks: seq<string>)
    ensures NoDuplicates(tracks)
    ensures forall id :: id in tracks <==>
      exists i :: 0 <= i < |instrumentStems| && TrackId(instrumentStems[i]) == id
  {
    var ids := seq(|instrumentStems|, i requires 0 <= i < |instrumentStems| => TrackId(instrumentStems[i]));
    tracks := Distinct(ids);
    assert forall id :: id in ids <==>
      exists i :: 0 <= i < |instrumentStems| && TrackId(instrumentStems[i]) == id by {
      forall id | id in ids
        ensures exists i :: 0 <= i < |instrumentStems| && TrackId(instrumentStems[i]) == id
      {
        var i :| 0 <= i < |ids| && ids[i] == id;
        assert TrackId(instrumentStems[i]) == id;
      }
      forall i | 0 <= i < |instrumentStems| ensures TrackId(instrumentStems[i]) in ids {
        assert ids[i] == TrackId(instrumentStems[i]);
      }
    }
  }

  /** `get_track_instruments`: each instrument of one track exactly once. */
  method TrackInstruments(track: Track) returns (instruments: seq<string>)
    ensures NoDuplicates(instruments)
    ensures forall x :: x in instruments <==> x in TrackInstrumentSet(track)
  {
    var labels := seq(|track|, i requires 0 <= i < |track| => track[i].instrument);
    instruments := Distinct(labels);
    assert forall x :: x in labels <==> x in TrackInstrumentSet(track) by {
      forall x | x in labels ensures x in TrackInstrumentSet(track) {
        var i :| 0 <= i < |labels| && labels[i] == x;
        assert track[i].instrument == x;
      }
      forall i | 0 <= i < |track| ensures track[i].instrument in labels {
        assert labels[i] == track[i].instrument;
      }
    }
  }
}

=== FILE: ordering.dfy ===
/**
 Python's ordering of `str` values (lexicographic by code point) and the
 `sorted(set(xs))` idiom, as a strictly ascending sequence.
 */
module Ordering {

  /** `a < b` on Python strings: the first differing character decides, and a proper prefix comes first. */
  predicate Less(a: string, b: string)
    decreases |a|
  {
    if |b| == 0 then false
    else if |a| == 0 then true
    else if a[0] != b[0] then a[0] < b[0]
    else Less(a[1..], b[1..])
  }

  lemma {:induction false} LessIrreflexive(a: string)
    ensures !Less(a, a)
    decreases |a|
  {
    if |a| > 0 {
      LessIrreflexive(a[1..]);
    }
  }

  lemma {:induction false} LessTransitive(a: string, b: string, c: string)
    requires Less(a, b) && Less(b, c)
    ensures Less(a, c)
    decreases |a|
  {
    if |a| > 0 && a[0] == b[0] && b[0] == c[0] {
      LessTransitive(a[1..], b[1..], c[1..]);
    }
  }

  lemma {:induction false} LessTotal(a: string, b: string)
    ensures a == b || Less(a, b) || Less(b, a)
    decreases |a|
  {
    if |a| > 0 && |b| > 0 && a[0] == b[0] {
      LessTotal(a[1..], b[1..]);
      if a[1..] == b[1..] {
        assert a == [a[0]] + a[1..] && b == [b[0]] + b[1..];
      }
    }
  }

  lemma {:induction false} LessAsymmetric(a: string, b: string)
    ensures Less(a, b) ==> !Less(b, a)
    decreases |a|
  {
    if |a| > 0 && |b| > 0 && a[0] == b[0] {
      LessAsymmetric(a[1..], b[1..]);
    }
  }

  /** Every element is strictly below every later element: sorted, with no duplicates. */
  predicate StrictlyAscending(xs: seq<string>) {
    forall i, j :: 0 <= i < j < |xs| ==> Less(xs[i], xs[j])
  }

  function Elems(xs: seq<string>): set<string> {
    set x | x in xs
  }

  lemma ElemsEmpty(xs: seq<string>)
    ensures Elems(xs) == {} <==> |xs| == 0
  {
    if |xs| > 0 {
      assert xs[0] in Elems(xs);
    }
  }

  lemma ElemsCons(a: string, xs: seq<string>)
    ensures Elems([a] + xs) == {a} + Elems(xs)
  {
    var r := [a] + xs;
    assert forall j :: 0 < j < |r| ==> r[j] == xs[j - 1];
    assert r[1..] == xs;
  }

  /** Places `x` into a strictly ascending sequence, dropping it if it is already there. */
  function Insert(x: string, xs: seq<string>): (r: seq<string>)
    requires StrictlyAscending(xs)
    ensures StrictlyAscending(r)
    ensures Elems(r) == Elems(xs) + {x}
  {
    if |xs| == 0 then [x]
    else if x == xs[0] then
      assert xs[0] in Elems(xs);
      xs
    else if Less(x, xs[0]) then
      PrependBelow(x, xs);
      [x] + xs
    else
      LessTotal(x, xs[0]);
      var rest := Insert(x, xs[1..]);
      PrependHead(xs, x, rest);
      [xs[0]] + rest
  }

  lemma PrependBelow(x: string, xs: seq<string>)
    requires StrictlyAscending(xs) && |xs| > 0 && Less(x, xs[0])
    ensures StrictlyAscending([x] + xs)
    ensures Elems([x] + xs) == Elems(xs) + {x}
  {
    forall j | 0 < j < |xs| ensures Less(x, xs[j]) {
      LessTransitive(x, xs[0], xs[j]);
    }
    ElemsCons(x, xs);
  }

  /** Putting the old head back in front of the insertion into the tail keeps the order. */
  lemma PrependHead(xs: seq<string>, x: string, rest: seq<string>)
    requires StrictlyAscending(xs) && |xs| > 0 && Less(xs[0], x)
    requires StrictlyAscending(rest) && Elems(rest) == Elems(xs[1..]) + {x}
    ensures StrictlyAscending([xs[0]] + rest)
    ensures Elems([xs[0]] + rest) == Elems(xs) + {x}
  {
    assert Elems(xs) == {xs[0]} + Elems(xs[1..]) by {
      ElemsCons(xs[0], xs[1..]);
      assert xs == [xs[0]] + xs[1..];
    }
    ElemsCons(xs[0], rest);
    forall y | y in Elems(rest) ensures Less(xs[0], y) {
      if y != x {
        var j :| 0 <= j < |xs[1..]| && xs[1..][j] == y;
        assert xs[1 + j] == y;
      }
    }
    var r := [xs[0]] + rest;
    forall i, j | 0 <= i < j < |r| ensures Less(r[i], r[j]) {
      assert r[j] == rest[j - 1] && rest[j - 1] in Elems(rest);
      if i > 0 {
        assert r[i] == rest[i - 1];
      }
    }
    assert r[1..] == rest;
  }

  /** Python's `sorted(set(xs))`. */
  function SortedSet(xs: seq<string>): (r: seq<string>)
    ensures StrictlyAscending(r)
    ensures Elems(r) == Elems(xs)
  {
    if |xs| == 0 then []
    else
      assert Elems(xs) == Elems(xs[..|xs| - 1]) + {xs[|xs| - 1]} by {
        assert xs == xs[..|xs| - 1] + [xs[|xs| - 1]];
      }
      Insert(xs[|xs| - 1], SortedSet(xs[..|xs| - 1]))
  }

  /** A strictly ascending sequence is determined by its elements alone. */
  lemma {:induction false} AscendingUnique(a: seq<string>, b: seq<string>)
    requires StrictlyAscending(a) && StrictlyAscending(b)
    requires Elems(a) == Elems(b)
    ensures a == b
    decreases |a|
  {
    if |a| > 0 && |b| > 0 {
      // the first element of each is the least element of the common set
      LessAsymmetric(a[0], b[0]);
      assert a[0] in Elems(b) && b[0] in Elems(a);
      assert a[0] == b[0];
      assert Elems(a[1..]) == Elems(b[1..]) by {
        assert Elems(a) == {a[0]} + Elems(a[1..]) by { assert a == [a[0]] + a[1..]; }
        assert Elems(b) == {b[0]} + Elems(b[1..]) by { assert b == [b[0]] + b[1..]; }
        assert a[0] !in a[1..] by { LessIrreflexive(a[0]); }
        assert b[0] !in b[1..] by { LessIrreflexive(b[0]); }
      }
      AscendingUnique(a[1..], b[1..]);
      assert a == [a[0]] + a[1..] && b == [b[0]] + b[1..];
    } else {
      ElemsEmpty(a);
      ElemsEmpty(b);
    }
  }
}

=== FILE: strings.dfy ===
/**
 String helpers shared by every part of the model: Python's `s.split(sep)[0]`,
 `sep in s`, `s.rsplit(c, 1)[1]`, ASCII lower-casing and the decimal rendering
 of a natural number that f-strings use.
 */
module Strings {

  /** `sep` occurs in `s` starting at index `i`. */
  predicate OccursAt(s: string, sep: string, i: nat) {
    i + |sep| <= |s| && s[i..i + |sep|] == sep
  }

  /** Python's `sep in s`. */
  predicate Contains(s: string, sep: string) {
    exists i: nat :: i <= |s| && OccursAt(s, sep, i)
  }

  /** Index of the first occurrence of `sep` at or after `from`, or `|s|` when there is none. */
  function FirstIndexFrom(s: string, sep: string, from: nat): (r: nat)
    requires |sep| > 0 && from <= |s|
    ensures from <= r <= |s|
    ensures r == |s| || OccursAt(s, sep, r)
    ensures forall j: nat :: from <= j < r ==> !OccursAt(s, sep, j)
    decreases |s| - from
  {
    if from == |s| then |s|
    else if OccursAt(s, sep, from) then from
    else FirstIndexFrom(s, sep, from + 1)
  }

  /** A prefix of `s` that stops before index `k` contains `sep` only where `s` does. */
  lemma PrefixOccurrences(s: string, sep: string, k: nat)
    requires |sep| > 0 && k <= |s|
    requires forall j: nat :: j < k ==> !OccursAt(s, sep, j)
    ensures !Contains(s[..k], sep)
  {
    forall i: nat
      ensures !OccursAt(s[..k], sep, i)
    {
      if i + |sep| <= k {
        assert s[..k][i..i + |sep|] == s[i..i + |sep|];
        assert !OccursAt(s, sep, i);
      }
    }
  }

  /**
   Python's `s.split(sep)[0]`: the text before the first occurrence of `sep`,
   or the whole of `s` when `sep` does not occur. Python refuses an empty separator.
   */
  function SplitFirst(s: string, sep: string): (r: string)
    requires |sep| > 0
    ensures r <= s
    ensures forall j: nat :: j < |r| ==> !OccursAt(s, sep, j)
    ensures !Contains(r, sep)
    ensures |r| == |s| || OccursAt(s, sep, |r|)
    ensures !Contains(s, sep) ==> r == s
    ensures Contains(s, sep) ==> OccursAt(s, sep, |r|)
  {
    var k := FirstIndexFrom(s, sep, 0);
    PrefixOccurrences(s, sep, k);
    if k == |s| then
      assert forall j: nat :: !OccursAt(s, sep, j) by {
        forall j: nat ensures !OccursAt(s, sep, j) {
          if j < k {} else {}
        }
      }
      s
    else s[..k]
  }

  /** No proper prefix of `sep` is also a suffix of it, so two occurrences never overlap. */
  predicate Borderless(sep: string) {
    forall k :: 0 < k < |sep| ==> sep[..k] != sep[|sep| - k..]
  }

  /**
   When `a` does not contain a borderless separator, the text of `a + sep + b` before
   the first `sep` is exactly `a`.
   */
  lemma {:induction false} SplitFirstOfJoin(a: string, sep: string, b: string)
    requires |sep| > 0 && Borderless(sep) && !Contains(a, sep)
    ensures SplitFirst(a + sep + b, sep) == a
  {
    var s := a + sep + b;
    assert OccursAt(s, sep, |a|) by {
      assert s[|a|..|a| + |sep|] == sep;
    }
    var r := SplitFirst(s, sep);
    forall j: nat | j < |a|
      ensures !OccursAt(s, sep, j)
    {
      if j + |sep| <= |a| {
        assert s[j..j + |sep|] == a[j..j + |sep|];
        assert !OccursAt(a, sep, j);
      } else {
        var k := j + |sep| - |a|;
        var w := s[j..j + |sep|];
        assert w[|sep| - k..] == sep[..k] by {
          assert w[|sep| - k..] == s[|a|..j + |sep|];
        }
        assert sep[..k] != sep[|sep| - k..];
      }
    }
    assert |r| == |a|;
    assert r == s[..|a|];
  }

  /** Index of the last occurrence of `c` in `s`. */
  function LastIndex(s: string, c: char): (r: nat)
    requires c in s
    ensures r < |s| && s[r] == c
    ensures forall j :: r < j < |s| ==> s[j] != c
  {
    if s[|s| - 1] == c then |s| - 1 else LastIndex(s[..|s| - 1], c)
  }

  /** Python's `s.rsplit(c, 1)[1]`: the text after the last `c`. */
  function AfterLast(s: string, c: char): (r: string)
    requires c in s
    ensures c !in r
    ensures |r| < |s| && s[|s| - |r| - 1] == c && s[|s| - |r|..] == r
  {
    s[LastIndex(s, c) + 1..]
  }

  /** Lower-casing of one character, restricted to ASCII letters. */
  function LowerChar(c: char): (r: char)
    ensures 'A' <= c <= 'Z' ==> 'a' <= r <= 'z'
    ensures !('A' <= c <= 'Z') ==> r == c
  {
    if 'A' <= c <= 'Z' then (c as int - 'A' as int + 'a' as int) as char else c
  }

  function LowerAscii(s: string): (r: string)
    ensures |r| == |s|
    ensures forall i :: 0 <= i < |s| ==> r[i] == LowerChar(s[i])
  {
    seq(|s|, i requires 0 <= i < |s| => LowerChar(s[i]))
  }

  function DigitChar(d: nat): (c: char)
    requires d < 10
    ensures '0' <= c <= '9'
  {
    (('0' as int) + d) as char
  }

  /** The decimal text of `n` with no leading zeros, as Python's `str(n)` and f-strings write it. */
  function NatToDecimal(n: nat): (s: string)
    ensures |s| >= 1
    ensures forall i :: 0 <= i < |s| ==> '0' <= s[i] <= '9'
    ensures n < 10 <==> |s| == 1
  {
    if n < 10 then [DigitChar(n)] else NatToDecimal(n / 10) + [DigitChar(n % 10)]
  }

  /** Distinct numbers have distinct decimal texts. */
  lemma {:induction false} NatToDecimalInjective(a: nat, b: nat)
    requires NatToDecimal(a) == NatToDecimal(b)
    ensures a == b
    decreases a
  {
    var sa, sb := NatToDecimal(a), NatToDecimal(b);
    if a < 10 && b < 10 {
      assert sa[0] == DigitChar(a) && sb[0] == DigitChar(b);
    } else if a >= 10 && b >= 10 {
      assert sa[|sa| - 1] == DigitChar(a % 10);
      assert sb[|sb| - 1] == DigitChar(b % 10);
      assert sa[..|sa| - 1] == NatToDecimal(a / 10);
      assert sb[..|sb| - 1] == NatToDecimal(b / 10);
      NatToDecimalInjective(a / 10, b / 10);
    }
  }
}

=== FILE: upload.dfy ===
/**
 The file-name logic of the separation web service (website/app.py): which
 uploads are accepted, and the names under which the separated target and
 accompaniment are written. The Flask request handling, `secure_filename`
 and the separation model itself are outside the model.
 */
module Upload {
  import opened Strings

  /** `ALLOWED_EXTENSIONS`. */
  const AllowedExtensions: set<string> := {"wav"}

  /** `target_instrument`, the stem the deployed model separates. */
  const TargetInstrument: string := "acoustic_guitar"

  /** `allowed_file`: the name has a `'.'` and the text after the last one, lower-cased, is an allowed extension. */
  function AllowedFile(filename: string): (ok: bool)
    ensures '.' !in filename ==> !ok
    ensures ok ==> LowerAscii(AfterLast(filename, '.')) == "wav"
  {
    '.' in filename && LowerAscii(AfterLast(filename, '.')) in AllowedExtensions
  }

  /** The name ends in `'.'` followed by `w`, `a`, `v` in either case. */
  predicate HasWavExtension(s: string) {
    |s| >= 4 && s[|s| - 4] == '.' && LowerAscii(s[|s| - 3..]) == "wav"
  }

  /** `allowed_file` accepts a name exactly when its last four characters are `.wav` up to case. */
  lemma AllowedFileIff(filename: string)
    ensures AllowedFile(filename) <==> HasWavExtension(filename)
  {
    if AllowedFile(filename) {
      var ext := AfterLast(filename, '.');
      assert |LowerAscii(ext)| == 3;
      assert filename[|filename| - 3..] == ext;
    }
    if HasWavExtension(filename) {
      var p := |filename| - 4;
      var tail := filename[|filename| - 3..];
      forall j | p < j < |filename| ensures filename[j] != '.' {
        assert filename[j] == tail[j - (p + 1)];
        assert LowerAscii(tail)[j - (p + 1)] == LowerChar(tail[j - (p + 1)]);
      }
      assert LastIndex(filename, '.') == p;
      assert AfterLast(filename, '.') == tail;
    }
  }

  /** Any letter case is accepted. */
  lemma AcceptsUpperCase()
    ensures AllowedFile("x.WAV")
  {
    var s := "x.WAV";
    assert s[2..] == "WAV";
    assert LowerAscii("WAV") == "wav";
    AllowedFileIff(s);
  }

  /** A name may be nothing but the extension. */
  lemma AcceptsBareExtension()
    ensures AllowedFile(".wav")
  {
    var s := ".wav";
    assert s[1..] == "wav";
    assert LowerAscii("wav") == "wav";
    AllowedFileIff(s);
  }

  /** Only the last extension counts: `a.mp3.wav` is accepted and `a.wav.mp3` is not. */
  lemma OnlyLastExtensionCounts()
    ensures AllowedFile("a.mp3.wav") && !AllowedFile("a.wav.mp3")
  {
    var s, t := "a.mp3.wav", "a.wav.mp3";
    assert s[6..] == "wav";
    assert LowerAscii("wav") == "wav";
    AllowedFileIff(s);
    assert t[6..] == "mp3";
    assert LowerAscii("mp3")[0] == 'm';
    AllowedFileIff(t);
  }

  /** The extension must follow a `'.'` and be exactly three letters long. */
  lemma RejectsNearMisses()
    ensures !AllowedFile("wav") && !AllowedFile("a.wave")
  {
    AllowedFileIff("wav");
    var s := "a.wave";
    assert s[2] == 'w';
    AllowedFileIff(s);
  }

  /** The literal `".wav"` that `mix_name` splits on. */
  const WavSuffix: string := ".wav"

  lemma WavSuffixBorderless()
    ensures |WavSuffix| > 0 && Borderless(WavSuffix)
  {
    forall k | 0 < k < |WavSuffix| ensures WavSuffix[..k] != WavSuffix[|WavSuffix| - k..] {
      assert WavSuffix[..k][0] == '.';
      assert WavSuffix[|WavSuffix| - k..][0] != '.';
    }
  }

  /** `filename.split(".wav")[0]`: the upload's name before its first `.wav`. */
  function MixName(filename: string): (r: string)
    ensures r <= filename && !Contains(r, WavSuffix)
    ensures !Contains(filename, WavSuffix) ==> r == filename
    ensures Contains(filename, WavSuffix) ==> OccursAt(filename, WavSuffix, |r|)
  {
    SplitFirst(filename, WavSuffix)
  }

  /** A base name without `.wav` in it comes back from `base + ".wav"`. */
  lemma MixNameOfWav(base: string)
    requires !Contains(base, WavSuffix)
    ensures MixName(base + WavSuffix) == base
  {
    WavSuffixBorderless();
    SplitFirstOfJoin(base, WavSuffix, "");
    assert base + WavSuffix + "" == base + WavSuffix;
  }

  /** The split is case-sensitive: an accepted `.WAV` upload keeps its extension in `mix_name`. */
  lemma MixNameKeepsUpperCaseExtension()
    ensures AllowedFile("a.WAV") && MixName("a.WAV") == "a.WAV"
  {
    AllowedFileIff("a.WAV");
    UpperCaseHasNoWav();
  }

  /** `a.WAV` holds `.wav` nowhere: the character after a `'.'` is never `'w'`. */
  lemma UpperCaseHasNoWav()
    ensures !Contains("a.WAV", WavSuffix)
  {
    var s := "a.WAV";
    forall i: nat | i + |WavSuffix| <= |s| ensures !OccursAt(s, WavSuffix, i) {
      assert s[i..i + |WavSuffix|][1] == s[i + 1];
    }
  }

  /** `"{}_{}.wav".format(mix_name, target_instrument)`. */
  function PredName(mixName: string, target: string): (r: string)
    ensures |r| == |mixName| + |target| + 5
    ensures r[..|mixName|] == mixName && r[|mixName|] == '_'
    ensures r[|mixName| + 1..|r| - 4] == target && r[|r| - 4..] == WavSuffix
  {
    mixName + "_" + target + WavSuffix
  }

  /** `"{}_comp.wav".format(mix_name)`. */
  function CompName(mixName: string): (r: string)
    ensures |r| == |mixName| + 9
    ensures r[..|mixName|] == mixName && r[|mixName|..] == "_comp.wav"
  {
    mixName + "_comp.wav"
  }

  /** The two output files collide exactly when the target is called `comp`. */
  lemma OutputNamesDistinct(mixName: string, target: string)
    ensures PredName(mixName, target) == CompName(mixName) <==> target == "comp"
  {
    var p, c := PredName(mixName, target), CompName(mixName);
    if p == c {
      var k := |mixName| + 1;
      assert |target| == 4;
      assert p[k..k + 4] == target;
      assert c[k..k + 4] == "comp";
    }
    if target == "comp" {
      assert p == mixName + "_comp.wav";
    }
  }

  /** With the deployed target the prediction never overwrites the accompaniment. */
  lemma DeployedNamesDistinct(mixName: string)
    ensures PredName(mixName, TargetInstrument) != CompName(mixName)
  {
    OutputNamesDistinct(mixName, TargetInstrument);
  }
}
